=== FILE: README.md ===
# Chinese-names: a verified model of the naming routes, the sign-in flow and the generator form

This project models the logic of a Next.js site that suggests and explains Chinese given
names with a chat-completion model, and signs users in with Google through Supabase.

- **The two API routes** are `POST /api/generate-names` and `POST /api/explain-name`.
  Each one:
  - validates its request body, then checks that the API key is configured;
  - normalises the locale and builds the user prompt line by line;
  - classifies the upstream result as one of: an upstream failure, a 500 for a missing
    content, a 500 for an unparsable content, the catch-all 500, or the decoded JSON
    value itself.
- **The tolerant response decoder** is duplicated in both routes. It is made of three
  parts:
  - `tryExtract` flattens an arbitrarily nested message into text;
  - `extractContent` tries five places in turn;
  - `extractJson` parses the content whole, or else parses its first-`{`-to-last-`}`
    span.

  The module `ResponseDecoder` models the name-generation copy. `ExplainName` carries the
  explanation route's copy as written, and each of its functions is proved equal to the
  first copy's on every input. The one regular expression both copies use,
  `/\{[\s\S]*\}/`, is modelled once, as `ResponseDecoder.BraceMatch`.
- **The OAuth callback** (`GET /auth/callback`) picks a redirect. An error parameter
  wins, then the code exchange, then the sanitised `next` path.
- **The server actions** are `getSiteUrl`, `getReturnPath`, `signInWithGoogle` and
  `signOut`. They are modelled as precedence chains over headers and as redirect
  decisions.
- **The generator form** has these parts:
  - the expectation toggle;
  - the submit guard, and the request body it posts;
  - the result transition once the request settles;
  - the reset button.
- **The auth buttons** consist of the user label and the three render shapes.

Some things are parameters instead of being modelled:

- `JSON.parse` is the partial function `parse: string -> Option<Json>`, where `None`
  means it throws.
- The upstream `fetch` is the parameter `fetch: UpstreamRequest -> Upstream`. A decision
  that does not depend on `fetch` is one that makes no upstream call.
- These are inputs too:
  - the code exchange;
  - the OAuth start and the sign-out call;
  - `new URL` (through `pathOf`, `isBase` and `resolves`);
  - Supabase client creation;
  - the environment variables, as the record `Completion.Env`.

JavaScript semantics are spelled out in `JsValue`:

- truthiness;
- `||` and `??`;
- `v?.key` and `v?.[0]`;
- `join` and `split`;
- `String(v)`.

## Model

| member | source | states |
|---|---|---|
| JsValue.TruthyJson | app/api/generate-names/route.ts:17 | JavaScript truthiness of a parsed value: `null`, `false`, `0` and `""` are falsy, every array and object is truthy |
| JsValue.Truthy | app/api/generate-names/route.ts:17 | a value that may be `undefined` is truthy when present and truthy |
| JsValue.TruthyText | app/api/generate-names/route.ts:65 | an optional string is truthy when present and non-empty |
| JsValue.Field | app/api/generate-names/route.ts:134-137 | `v?.key` is defined exactly on objects that have the key, and gives that property |
| JsValue.Index0 | app/api/generate-names/route.ts:41 | `v?.[0]` is defined exactly for a non-empty array, an object with a property `0` and a non-empty string, and gives the first element, that property, or the first character |
| JsValue.OrElse | app/api/generate-names/route.ts:38-44 | the first operand when it is truthy and the second otherwise, so the result is truthy exactly when one operand is |
| JsValue.StartsWith | app/auth/callback/route.ts:10 | `s.startsWith(prefix)` holds exactly when `s` is `prefix` followed by some rest |
| JsValue.LabelledTextsAgree | app/api/generate-names/route.ts:96-102 | two `label: value` texts with colon-free labels are equal only when the labels and the values are |
| JsValue.Join | app/api/generate-names/route.ts:23-26 | a join of no parts is empty; otherwise it opens with the first part, closes with the last, and is as long as the parts plus one separator between each pair |
| JsValue.JoinTwo | app/api/generate-names/route.ts:104-105 | two parts join to the first, the separator, the second |
| JsValue.JoinAvoids | app/api/generate-names/route.ts:99 | a character in neither the parts nor the separator is not in the join |
| JsValue.Split | app/api/generate-names/route.ts:104-105 | splitting at a one-character separator gives at least one piece, and no piece holds the separator |
| JsValue.JoinAppend | app/api/generate-names/route.ts:23-26 | joining two non-empty lists is the two joins glued with the separator |
| JsValue.JoinEmptyIff | app/api/generate-names/route.ts:23-26 | a join of non-empty parts is empty exactly when there are no parts |
| JsValue.SplitWithoutSeparator | app/api/generate-names/route.ts:104-105 | a text without the separator splits into itself |
| JsValue.SplitAtFirstSeparator | app/api/generate-names/route.ts:104-105 | text before the first separator is split off as the first piece |
| JsValue.SplitJoin | app/api/generate-names/route.ts:104-105 | `split` undoes `join` for non-empty lists of separator-free parts |
| JsValue.DigitChar | components/name-generator.tsx:105 | a digit value maps to a digit character |
| JsValue.Decimal | components/name-generator.tsx:105 | the decimal notation is non-empty, all digits, and has no leading zero |
| JsValue.DecimalRoundTrip | components/name-generator.tsx:105 | reading the decimal notation back gives the number |
| JsValue.ToJsString | components/name-generator.tsx:105 | `String(v)`: `null`, `true`/`false`, the signed decimal notation of an integer below 10^21 in magnitude, a string itself; an array the comma join of its element texts (empty for no elements), throwing exactly when an element's conversion throws; an object `[object Object]`, throwing exactly when it has its own `toString` property |
| JsValue.OwnToStringThrows | components/name-generator.tsx:105 | an object with its own `toString` cannot be converted, alone or as an array element |
| JsValue.ArrayOfTextsSplits | components/name-generator.tsx:105 | an array of comma-free texts converts to a text that splits at commas back into them |
| JsValue.ElementStrings | components/name-generator.tsx:105 | one text per array element, in order: the empty text for `null`, otherwise the element's own `String`; none exactly when some non-null element's conversion throws |
| ResponseDecoder.Extract | app/api/generate-names/route.ts:18-36 | falsy values, booleans and numbers give nothing; a non-empty string gives itself; a string `text` wins, then an array `content`, then a string `content`, and an object gives a text exactly when it has one of those; an array always gives a text, empty exactly when no part extracts |
| ResponseDecoder.Parts | app/api/generate-names/route.ts:23-25 | the extracted parts are no more than the elements, and none is empty |
| ResponseDecoder.ExtractedTexts | app/api/generate-names/route.ts:23-24 | a definition the parts lemma is stated over: the element-wise `.map(tryExtract)`, with `undefined` written as the empty text |
| ResponseDecoder.PartsFilterExtracted | app/api/generate-names/route.ts:23-25 | the parts are exactly the non-empty extracted texts, in order and with their multiplicities |
| ResponseDecoder.TextBlock | app/api/generate-names/route.ts:19 | a block with a non-empty string `text` reads as that text |
| ResponseDecoder.TwoParts | app/api/generate-names/route.ts:23-25 | two elements with non-empty texts give those two parts, in order |
| ResponseDecoder.TextBlocksJoinByLine | app/api/generate-names/route.ts:28-33 | a `content` list of two text blocks reads as the two texts on two lines |
| ResponseDecoder.JoinLines | app/api/generate-names/route.ts:26 | the newline join of non-empty lines is empty exactly when there are none |
| ResponseDecoder.TryExtract | app/api/generate-names/route.ts:18-36 | `undefined` gives nothing and a present value its `tryExtract`; a truthy result comes from a truthy value |
| ResponseDecoder.Attempts | app/api/generate-names/route.ts:38-44 | there are exactly five attempts |
| ResponseDecoder.ExtractContent | app/api/generate-names/route.ts:15-45 | a falsy message gives nothing; otherwise the result is truthy exactly when some attempt is, it is then the first truthy attempt, and a falsy result is the last attempt's value |
| ResponseDecoder.Reasoning | app/api/generate-names/route.ts:137 | the reasoning is taken exactly when it is a string |
| ResponseDecoder.Content | app/api/generate-names/route.ts:137 | the extracted content when it is truthy, else the reasoning; truthy exactly when one of them is |
| ResponseDecoder.FirstIndex | app/api/generate-names/route.ts:51 | the first occurrence of a character, or none when absent |
| ResponseDecoder.LastIndex | app/api/generate-names/route.ts:51 | the last occurrence of a character, or none when absent |
| ResponseDecoder.BraceMatch | app/api/generate-names/route.ts:51-52 | no match exactly when no span opens with `{` and closes with `}`; otherwise the leftmost such span, made as long as possible |
| ResponseDecoder.ExtractJson | app/api/generate-names/route.ts:47-61 | the direct parse when it succeeds; else `null` without a brace span; else the span's parse, `null` when that fails |
| ResponseDecoder.NoBraceNoPayload | app/api/generate-names/route.ts:50-59 | an unparsable text without `{` decodes to `null` |
| ResponseDecoder.CommentaryAroundObject | app/api/generate-names/route.ts:50-58 | prose around one object is cut away and the object is parsed |
| ResponseDecoder.BraceMatchAroundObject | app/api/generate-names/route.ts:51 | the brace span of text around an object is that object |
| ResponseDecoder.ArrayConcat | app/api/generate-names/route.ts:22-27 | the text of a concatenated array is the two texts joined by a newline when both are non-empty, else the non-empty one |
| ResponseDecoder.PartsAppend | app/api/generate-names/route.ts:23-25 | the parts of a concatenation are the concatenated parts |
| ResponseDecoder.NonEmpty | app/api/generate-names/route.ts:25 | keeps exactly the non-empty strings of the list, each as often as it occurs |
| ResponseDecoder.NonEmptyAppend | app/api/generate-names/route.ts:25 | filtering distributes over concatenation, so the kept strings stay in order |
| ResponseDecoder.StringArray | app/api/generate-names/route.ts:22 | a definition the string-array lemmas are stated over: the JSON array of the given strings |
| ResponseDecoder.StringArrayJoinsNonEmpty | app/api/generate-names/route.ts:22-27 | an array of strings extracts to the newline join of its non-empty strings |
| ResponseDecoder.StringArrayParts | app/api/generate-names/route.ts:23-25 | the parts of an array of strings are its non-empty strings |
| ResponseDecoder.ContentArrayActsAsArray | app/api/generate-names/route.ts:28-33 | an object whose `content` is an array, with no string `text`, extracts like that array |
| ResponseDecoder.PartsRecoverable | app/api/generate-names/route.ts:22-27 | when no part holds a newline, splitting the text gives back the parts |
| ResponseDecoder.ReasoningIsLastResort | app/api/generate-names/route.ts:137 | `reasoning` is used only when every attempt is falsy, and then it is the content |
| Completion.NormalizeLocale | app/api/generate-names/route.ts:75 | the locale is Chinese exactly when the body says `"zh"` |
| Completion.Choice | app/api/generate-names/route.ts:134 | the first choice of a non-empty `choices` array; nothing without `choices`, for an empty array, or for a `choices` that is `null`, a boolean or a number; `v?.[0]` of `choices` otherwise |
| Completion.MessageOf | app/api/generate-names/route.ts:135 | the choice's message unless it is `null` or `undefined`, in which case the choice |
| Completion.BodyContent | app/api/generate-names/route.ts:134-137 | no content without a first choice |
| Completion.StandardReplyContent | app/api/generate-names/route.ts:134-137 | the reply shape `{ choices: [{ message: { content } }] }` reads as its non-empty content |
| Completion.Ok | app/api/generate-names/route.ts:128 | `response.ok`: a status from 200 to 299 |
| Completion.Representable | app/api/generate-names/route.ts:130 | the statuses a JSON response can carry: 200 to 599 except 204, 205 and 304 |
| Completion.Respond | app/api/generate-names/route.ts:109-157 | an upstream failure exactly for a non-ok status a response can carry, with that status and body, and the catch-all 500 for any other non-ok status; status 200 exactly for a payload, which happens exactly when the body parses, has content, and the content decodes to a truthy value, that value being the payload; a parsed body without truthy content is the 500 with `未获取到模型输出` and the first choice; content that decodes to nothing truthy is the 500 with `解析模型输出失败` and the raw content; a throw or a non-JSON body is the catch-all 500 |
| Completion.PayloadIsVerbatim | app/api/generate-names/route.ts:147-153 | content that parses whole to a truthy value is answered unchanged |
| Completion.FalsyParseIsFailure | app/api/generate-names/route.ts:147-151 | content that parses whole to a falsy value is a parse failure, without the brace fallback |
| Completion.LanguageName | app/api/generate-names/route.ts:102 | the language line reads 中文 exactly for Chinese and English exactly for English, in both routes |
| GenerateNames.HasRequiredFields | app/api/generate-names/route.ts:65 | the request has a truthy surname and a truthy gender |
| GenerateNames.Heading.Label | app/api/generate-names/route.ts:96-102 | the template's wording: 姓氏, 性别, 出生日期时辰, 父母期望, 避讳字, 字数偏好 and 输出语言, none empty and none holding a colon or a newline |
| GenerateNames.Line.Text | app/api/generate-names/route.ts:96-102 | a line is its label, then `: `, then the value |
| GenerateNames.LabelsDistinct | app/api/generate-names/route.ts:96-102 | different headings have different labels |
| GenerateNames.TextDeterminesLine | app/api/generate-names/route.ts:96-102 | two lines with the same text have the same heading and the same value |
| GenerateNames.OptionalLine | app/api/generate-names/route.ts:98-100 | a line is present exactly when the field is truthy, and it carries the field |
| GenerateNames.ExpectationsLine | app/api/generate-names/route.ts:99 | present exactly for a non-empty list, with the items joined by `、` |
| GenerateNames.LengthLine | app/api/generate-names/route.ts:101 | present exactly for a truthy preference: `single` is 单字, anything else 双字 |
| GenerateNames.Headings | app/api/generate-names/route.ts:95-103 | a definition the template lemmas are stated over: the headings of the lines, in order |
| GenerateNames.HeadingsAppend | app/api/generate-names/route.ts:95-104 | the headings of joined line groups are the joined headings |
| GenerateNames.AppendAscending | app/api/generate-names/route.ts:95-103 | adding at most one later heading keeps the template order |
| GenerateNames.TemplateMembership | app/api/generate-names/route.ts:95-103 | each optional heading is in the template exactly when its slot is filled |
| GenerateNames.TemplateOrder | app/api/generate-names/route.ts:95-103 | however the optional slots are filled, the headings keep the template's order |
| GenerateNames.TemplateHeadings | app/api/generate-names/route.ts:95-104 | the headings of the template's six groups are the joined headings of the groups |
| GenerateNames.AssembledHeadings | app/api/generate-names/route.ts:95-103 | the assembled lines have each optional heading exactly when its field is truthy, in the template's order |
| GenerateNames.AllFromFieldsAppend | app/api/generate-names/route.ts:95-104 | line groups that carry their fields' values still do when joined |
| GenerateNames.AssembledFromFields | app/api/generate-names/route.ts:95-103 | every assembled line carries the value of its own field |
| GenerateNames.PromptLines | app/api/generate-names/route.ts:95-104 | 3 to 7 lines: surname, then gender, language last; each optional line is there exactly when its field is truthy, with its value; the headings follow the template order; every line carries its own field's value |
| GenerateNames.UserPrompt | app/api/generate-names/route.ts:93-105 | the prompt opens with the surname line and closes with the language line |
| GenerateNames.LineAvoidsNewline | app/api/generate-names/route.ts:95-101 | a line filled from values without newlines holds none |
| GenerateNames.PromptSplitsIntoLines | app/api/generate-names/route.ts:104-105 | when no surname, gender, birth time, avoid text or expectation holds a newline, the prompt splits back into its lines |
| GenerateNames.Prepare | app/api/generate-names/route.ts:64-105 | rejects exactly when a required field or the key is missing, with 400 before 500; otherwise calls with the normalised locale and the built prompt |
| GenerateNames.Post | app/api/generate-names/route.ts:63-158 | 400 for missing fields whatever the upstream; 500 for a missing key whatever the upstream; otherwise the classification of the upstream result for exactly this prompt; 200 only for a valid request and a payload |
| ExplainName.Extract | app/api/explain-name/route.ts:16-34 | this route's `tryExtract` equals the generation route's on every value |
| ExplainName.Parts | app/api/explain-name/route.ts:21-30 | this route's part lists equal the generation route's on every list |
| ExplainName.TryExtract | app/api/explain-name/route.ts:16-17 | on a value that may be `undefined`, equal to the generation route's |
| ExplainName.ExtractContent | app/api/explain-name/route.ts:13-43 | this route's `extractContent` equals the generation route's on every message |
| ExplainName.ExtractJson | app/api/explain-name/route.ts:45-59 | this route's `extractJson` equals the generation route's on every text |
| ExplainName.Heading.Label | app/api/explain-name/route.ts:92-94 | the template's wording: 名字, 补充说明 and 输出语言, none empty and none holding a colon or a newline |
| ExplainName.Line.Text | app/api/explain-name/route.ts:92-94 | a line is its label, then `: `, then the value |
| ExplainName.LabelsDistinct | app/api/explain-name/route.ts:92-94 | different headings have different labels |
| ExplainName.TextDeterminesLine | app/api/explain-name/route.ts:92-94 | two lines with the same text have the same heading and the same value |
| ExplainName.PromptLines | app/api/explain-name/route.ts:91-97 | the name first and the language last; the context line exactly when the context is truthy |
| ExplainName.UserPrompt | app/api/explain-name/route.ts:91-97 | the prompt opens with the name line and closes with the language line |
| ExplainName.PromptSplitsIntoLines | app/api/explain-name/route.ts:91-97 | with no newline in name or context, the prompt splits back into its lines |
| ExplainName.Prepare | app/api/explain-name/route.ts:62-97 | rejects exactly when the name or the key is missing, with 400 before 500; otherwise calls with the normalised locale and the built prompt |
| ExplainName.Post | app/api/explain-name/route.ts:61-149 | 400 for a missing name and 500 for a missing key, whatever the upstream; otherwise the shared classification with this route's failure message; 200 only for a payload |
| AuthCallback.ErrorParam | app/auth/callback/route.ts:8 | the description whenever it is present, even when empty; else the error |
| AuthCallback.NextPath | app/auth/callback/route.ts:9-10 | never starts with `http`: `/` when absent or when it starts with `http`, otherwise the value |
| AuthCallback.NextPathIdempotent | app/auth/callback/route.ts:9-10 | sanitising twice is sanitising once |
| AuthCallback.Get | app/auth/callback/route.ts:5-34 | uncaught exactly when the `next` address is rejected; then a truthy error always gives the error page; then with a truthy code, the error page exactly when the exchange fails; `next` exactly in the remaining cases, with the sanitised path |
| AuthCallback.ErrorBeatsCode | app/auth/callback/route.ts:13-18 | with an error parameter the outcome is the error page, whatever the exchange would do |
| AuthCallback.EmptyDescriptionHidesError | app/auth/callback/route.ts:8-13 | an empty `error_description` hides a truthy `error`, and the code is exchanged |
| AuthCallback.ProtocolRelativePassesThrough | app/auth/callback/route.ts:10 | a `//host` value passes the `http` check unchanged |
| AuthActions.HostHeader | app/actions/auth.ts:14 | the forwarded host whenever it is present, even empty, else `host`; absent only when both are |
| AuthActions.SiteUrl | app/actions/auth.ts:8-17 | a truthy origin first, then a truthy site variable, then `proto://host` for a truthy host with proto defaulting to `http`, else the local address; never empty |
| AuthActions.EmptyForwardedHostHidesHost | app/actions/auth.ts:14-16 | an empty `x-forwarded-host` hides `host`, giving the local address |
| AuthActions.ReturnPath | app/actions/auth.ts:19-27 | `/` without a truthy referer; a throw exactly when the referer does not parse; otherwise the path, or `/` when it is empty or starts with `/auth`; never empty and never under `/auth` |
| AuthActions.CallbackFor | app/actions/auth.ts:37-43 | fails exactly when the site is no valid base or the referer throws; otherwise it targets the site and always carries a non-empty `next` |
| AuthActions.SignInWithGoogle | app/actions/auth.ts:29-65 | the error page when the client cannot be created; uncaught exactly when the callback address cannot be built; then the error page on an OAuth error, the provider address when truthy, else `/` |
| AuthActions.SignOut | app/actions/auth.ts:67-82 | always ends at `/` |
| AuthButtons.FirstTruthyShift | components/auth-buttons.tsx:10-15 | past a falsy head, the first truthy entry of the tail is the first truthy entry of the list |
| AuthButtons.FirstTruthy | components/auth-buttons.tsx:10-15 | non-empty exactly when some entry is truthy, and then it is the first truthy entry |
| AuthButtons.UserLabel | components/auth-buttons.tsx:8-16 | `""` without a user; otherwise the full name, then the name, then the email, the first that is truthy, else `User`; never empty for a user |
| AuthButtons.UserLabelIsFirstCandidate | components/auth-buttons.tsx:10-15 | the label is the first truthy candidate, and it is one of them |
| AuthButtons.Render | components/auth-buttons.tsx:18-55 | nothing exactly when a Supabase variable is falsy; otherwise the sign-out form exactly for a user, with its non-empty label and the locale's words; else the sign-in form |
| AuthButtons.MissingConfigurationIgnoresUser | components/auth-buttons.tsx:19-21 | with a variable missing, the result is nothing whatever the user |
| NameGenerator.RemoveAll | components/name-generator.tsx:68 | the value is gone, every other value keeps its membership, and the counts are otherwise unchanged |
| NameGenerator.RemoveAllAppend | components/name-generator.tsx:68 | filtering distributes over concatenation, which keeps the rest in order |
| NameGenerator.RemoveAllAbsent | components/name-generator.tsx:68 | filtering out an absent value changes nothing |
| NameGenerator.RemoveAllDistinct | components/name-generator.tsx:68 | filtering a duplicate-free list keeps it duplicate-free |
| NameGenerator.Toggle | components/name-generator.tsx:67-69 | the item's membership flips and every other membership is unchanged; a new item is appended at the end; a chosen one is removed everywhere; as counts, exactly that |
| NameGenerator.ToggleKeepsDistinct | components/name-generator.tsx:67-69 | toggling never introduces a duplicate |
| NameGenerator.ToggleTwiceRestores | components/name-generator.tsx:67-69 | toggling a new item twice restores the list |
| NameGenerator.ToggleTwiceMovesToEnd | components/name-generator.tsx:67-69 | toggling a chosen item twice moves it to the end, once |
| NameGenerator.ToggleExpectation | components/name-generator.tsx:67-69 | the expectations become their toggle, so the item's membership flips; inputs, results, error and loading flag are unchanged |
| NameGenerator.Initial | components/name-generator.tsx:39-48 | the form's initial state: empty texts and list, gender male, length double, no results, no error, not loading |
| NameGenerator.JsWhitespace | components/name-generator.tsx:73 | the characters `trim` removes: the ECMAScript white space and line terminators |
| NameGenerator.TrimStart | components/name-generator.tsx:73 | a suffix of the text whose dropped prefix is white space, starting with a non-space |
| NameGenerator.TrimEnd | components/name-generator.tsx:73 | a prefix of the text whose dropped suffix is white space, ending with a non-space |
| NameGenerator.Trim | components/name-generator.tsx:73 | empty exactly when the text is all white space; otherwise it starts and ends with a non-space |
| NameGenerator.Omitted | components/name-generator.tsx:94-96 | an empty text is left out; any other text is sent as is |
| NameGenerator.LocaleCode | components/name-generator.tsx:98 | the posted locale code, which the route reads back as the same locale |
| NameGenerator.RequestOf | components/name-generator.tsx:91-99 | the posted body carries surname, gender, expectations and length as held; birth time and avoid text exactly when non-empty, as held; and a locale the route reads back as the page's |
| NameGenerator.Submit | components/name-generator.tsx:71-100 | rejected exactly for a blank surname, changing only the error; otherwise loading, with the error and results cleared, the inputs kept, and the form's values posted |
| NameGenerator.SubmittedRequestIsValid | components/name-generator.tsx:91-99 | a posted body always passes the route's validation, and the route reads back the form's locale |
| NameGenerator.SubmittedPromptFollowsForm | components/name-generator.tsx:91-99 | the route's prompt has a birth, avoid or expectations line exactly when that field is filled in, and always a length line |
| NameGenerator.ErrorMessage | components/name-generator.tsx:104-110 | a truthy `error` becomes the message through `String(v)`, so a non-empty string is itself, an object `[object Object]`, and a value whose conversion throws gives the `TypeError`'s message; without a truthy `error` it is the generic failure text |
| NameGenerator.OrJson | components/name-generator.tsx:108-109 | the value when it is truthy, else the fallback |
| NameGenerator.Complete | components/name-generator.tsx:102-114 | loading ends on every path and the inputs are untouched; a throw or a non-ok reply sets its message; an ok reply stores the suggestions (else `[]`) and the analysis (else `null`) and leaves the error as it was |
| NameGenerator.SubmitThenComplete | components/name-generator.tsx:71-115 | an accepted submission ends not loading, with no error exactly when the reply was ok |
| NameGenerator.RejectedKeepsResults | components/name-generator.tsx:73-76 | a rejected submission keeps the results and the loading flag |
| NameGenerator.Reset | components/name-generator.tsx:259-269 | every input and result goes back to its initial value: gender male, length double, no error; the loading flag is kept |
| NameGenerator.ResetIdempotent | components/name-generator.tsx:259-269 | resetting twice is resetting once, and resetting the initial form changes nothing |
| NameGenerator.SubmitAfterResetIsRejected | components/name-generator.tsx:73-76 | submitting right after a reset is rejected for the missing surname |

## Left out

- The upstream `fetch` details are left out: URL, headers, the model name, the `temperature` float and other parameters. Only the prompt and the locale reach the model's input.
- The system prompt's wording and its locale instruction are left out. `UpstreamRequest` carries the locale instead.
- `JSON.parse` itself is left out. It is the parameter `parse`, and the brace fallback's second parse is that same function.
- `new URL` parsing and resolution are parameters:
  - `pathOf` is the pathname and search of the referer (app/actions/auth.ts:23); a malformed referer throws uncaught there;
  - `isBase` covers the base of the callback address (app/actions/auth.ts:38);
  - `resolves` covers the `next` address (app/auth/callback/route.ts:11);
  - the redirect addresses are kept as paths.
- Supabase is left out: client creation, cookies, `getUser`, `exchangeCodeForSession`, `signInWithOAuth` and `signOut` (lib/supabase/server.ts is not part of this model). Their outcomes are inputs.
- `console.error` logging is left out, and so is the construction of `NextResponse` and `redirect` objects. A response is a status and a body datatype.
- A request body that is not an object is only partly modelled. A `req.json()` that throws is left out, and so is a JSON `null` body: reading `body.surname` (app/api/generate-names/route.ts:65) or `body.name` (app/api/explain-name/route.ts:63) on it throws outside any `try`, and Next answers 500. A number, string or array body reads every field as `undefined`, which the request datatypes express as absent fields. A body whose fields are not the declared types (a non-string `surname`, say) is left out; the request datatypes have the declared field types.
- Numbers are integers: floating-point and `NaN` upstream values are left out.
- `Json.Obj` is a map, so the key order `JSON.parse` keeps is not modelled. That order shows in the payload `NextResponse.json(parsed)` sends back (app/api/generate-names/route.ts:153); the model promises the same keys and values, not the same order.
- `AuthButtons.User`: `user_metadata.full_name` and `name` are taken as strings, following the source's `as string` cast. A truthy non-string metadata value is left out.
- JsValue.Index0: strings are sequences of Unicode code points, where JavaScript strings are UTF-16 code units. For a string whose first character lies outside the Basic Multilingual Plane, `v?.[0]` gives a lone high surrogate in JavaScript; the model gives the whole character.
- NameGenerator.ErrorMessage: the message of the `TypeError` a failed conversion throws is engine-specific; `ConversionFailure` holds the V8 wording, and other engines word it differently.
- JsValue.ToJsString: integers of magnitude 10^21 or more are written in plain decimal. JavaScript writes them in exponent notation (`1e+21`), and the contract promises nothing for them; integers in `Json` stand for doubles, which are not exact that far out anyway.
- The client's `err instanceof Error` fallback text (components/name-generator.tsx:111) is left out, because every exception on that path is an `Error`. `Reply.Failed` carries the error's message.
- The `if (!gender)` branch (components/name-generator.tsx:77-80) cannot be reached, because the gender state is always `male` or `female`. It is not modelled, and `Gender` is a two-valued datatype.
- The localised copy texts of the form are left out: lib/copy is not part of this model. `FormError.RequiredSurname` stands for the required-surname text.
- React scheduling, concurrent submissions, the disabled submit button while loading, and the locale switcher's routing are left out.
- The rendering of suggestions and analysis cards, and `AnalysisItem`, are presentational and left out.
- Purely presentational pages and configuration are left out: the landing page, the generator and explainer pages, the error page, the explainer form, and next.config.mjs.

=== FILE: auth_actions.dfy ===
/** The server actions of app/actions/auth.ts: `getSiteUrl` and `getReturnPath` as
    precedence chains over request headers, and the redirect decisions of
    `signInWithGoogle` and `signOut`. Supabase client creation, the OAuth start and the
    sign-out call are inputs; `new URL(referer)` is the parameter `pathOf`, answering the
    URL's pathname followed by its search, or `None` where the constructor throws, and
    whether `new URL("/auth/callback", siteUrl)` accepts the site address is `isBase`. */
module AuthActions {
  import opened Optional
  import opened JsValue
  import opened Completion

  /** The request headers the actions read; `None` is `headers().get` answering `null`. */
  datatype Headers = Headers(
    origin: Option<string>,
    forwardedProto: Option<string>,   // x-forwarded-proto
    forwardedHost: Option<string>,    // x-forwarded-host
    host: Option<string>,
    referer: Option<string>)

  const LocalSite := "http://localhost:3000"

  /** `x-forwarded-host ?? host`: the forwarded host whenever it is present, even empty. */
  function HostHeader(h: Headers): (r: Option<string>)
    ensures h.forwardedHost.Some? ==> r == h.forwardedHost
    ensures h.forwardedHost.None? ==> r == h.host
    ensures r.None? <==> h.forwardedHost.None? && h.host.None?
  {
    if h.forwardedHost.Some? then h.forwardedHost else h.host
  }

  /** `getSiteUrl`: a truthy `origin` header, else a truthy `NEXT_PUBLIC_SITE_URL`, else
      `proto://host` when the host is truthy (proto defaulting to `http`), else the local
      development address. The result is never empty. */
  function SiteUrl(h: Headers, env: Env): (r: string)
    ensures TruthyText(h.origin) ==> r == h.origin.value
    ensures !TruthyText(h.origin) && TruthyText(env.publicSiteUrl) ==> r == env.publicSiteUrl.value
    ensures !TruthyText(h.origin) && !TruthyText(env.publicSiteUrl) && TruthyText(HostHeader(h)) ==>
      r == h.forwardedProto.GetOr("http") + "://" + HostHeader(h).value
    ensures !TruthyText(h.origin) && !TruthyText(env.publicSiteUrl) && !TruthyText(HostHeader(h)) ==>
      r == LocalSite
    ensures r != ""
  {
    if TruthyText(h.origin) then h.origin.value
    else if TruthyText(env.publicSiteUrl) then env.publicSiteUrl.value
    else
      var protocol := h.forwardedProto.GetOr("http");
      var host := HostHeader(h);
      if TruthyText(host) then protocol + "://" + host.value
      else LocalSite
  }

  /** A present but empty `x-forwarded-host` hides the `host` header: the site falls
      back to the local address. */
  lemma EmptyForwardedHostHidesHost(h: Headers, env: Env)
    requires !TruthyText(h.origin) && !TruthyText(env.publicSiteUrl)
    requires h.forwardedHost == Some("") && TruthyText(h.host)
    ensures SiteUrl(h, env) == LocalSite
  {
  }

  /** `getReturnPath`: `/` without a truthy referer; otherwise the referer's path and
      search unless they start with `/auth` or are empty, in which case `/`. `None` is
      the uncaught throw of a malformed referer. */
  function ReturnPath(referer: Option<string>, pathOf: string -> Option<string>): (r: Option<string>)
    ensures !TruthyText(referer) ==> r == Some("/")
    ensures TruthyText(referer) ==> (r.None? <==> pathOf(referer.value).None?)
    ensures TruthyText(referer) && pathOf(referer.value).Some? ==>
      var p := pathOf(referer.value).value;
      r == Some(if p == "" || StartsWith(p, "/auth") then "/" else p)
    ensures r.Some? ==> r.value != "" && !StartsWith(r.value, "/auth")
  {
    if !TruthyText(referer) then Some("/")
    else match pathOf(referer.value)
      case None => None
      case Some(path) =>
        if StartsWith(path, "/auth") then Some("/")
        else Some(if path != "" then path else "/")
  }

  /** The `redirectTo` address handed to the OAuth start: `/auth/callback` on the site,
      with the `next` query parameter when the return path is truthy. */
  datatype CallbackUrl = CallbackUrl(siteUrl: string, next: Option<string>)

  /** The callback address for this request, or `None` when building it throws: when the
      site address is not a valid base for `new URL` (`isBase`), or, after that, when the
      referer is malformed. Because the return path is never empty, the address always
      carries `next`. */
  function CallbackFor(h: Headers, env: Env, isBase: string -> bool, pathOf: string -> Option<string>): (r: Option<CallbackUrl>)
    ensures r.None? <==> !isBase(SiteUrl(h, env)) || ReturnPath(h.referer, pathOf).None?
    ensures r.Some? ==> r.value.siteUrl == SiteUrl(h, env)
    ensures r.Some? ==> r.value.next == ReturnPath(h.referer, pathOf)
    ensures r.Some? ==> r.value.next.Some? && r.value.next.value != ""
  {
    var siteUrl := SiteUrl(h, env);
    if !isBase(siteUrl) then None
    else match ReturnPath(h.referer, pathOf)
      case None => None
      case Some(returnPath) =>
        Some(CallbackUrl(siteUrl, if returnPath != "" then Some(returnPath) else None))
  }

  /** Whether `createServerSupabaseClient` threw or gave a client. */
  datatype ClientCreation = ClientThrew | ClientReady

  /** What `signInWithOAuth` answered: the provider address, and whether it reported an
      error. */
  datatype OAuthReply = OAuthReply(url: Option<string>, error: bool)

  /** How a server action ends: a redirect, or an exception it does not catch. */
  datatype Navigation = Redirect(url: string) | Uncaught

  const AuthErrorPage := "/auth/error"

  /** `signInWithGoogle`: the error page when the client cannot be created or the OAuth
      start reports an error; else the provider address when one is returned, else the
      home page. A site address `new URL` rejects and a malformed referer are uncaught
      exceptions. */
  function SignInWithGoogle(client: ClientCreation, h: Headers, env: Env, isBase: string -> bool,
                            pathOf: string -> Option<string>, oauth: CallbackUrl -> OAuthReply): (r: Navigation)
    ensures client == ClientThrew ==> r == Redirect(AuthErrorPage)
    ensures r == Uncaught <==> client == ClientReady && CallbackFor(h, env, isBase, pathOf).None?
    ensures client == ClientReady && CallbackFor(h, env, isBase, pathOf).Some? ==>
      var reply := oauth(CallbackFor(h, env, isBase, pathOf).value);
      r == Redirect(if reply.error then AuthErrorPage
                    else if TruthyText(reply.url) then reply.url.value
                    else "/")
  {
    match client
    case ClientThrew => Redirect(AuthErrorPage)
    case ClientReady =>
      match CallbackFor(h, env, isBase, pathOf)
      case None => Uncaught
      case Some(callback) =>
        var reply := oauth(callback);
        if reply.error then Redirect(AuthErrorPage)
        else if TruthyText(reply.url) then Redirect(reply.url.value)
        else Redirect("/")
  }

  /** Whether `auth.signOut` reported an error. */
  datatype SignOutReply = SignedOut | SignOutFailed

  /** `signOut`: the home page, whether the client could not be created, the sign-out
      failed, or it succeeded. */
  function SignOut(client: ClientCreation, reply: SignOutReply): (r: Navigation)
    ensures r == Redirect("/")
  {
    match client
    case ClientThrew => Redirect("/")
    case ClientReady =>
      match reply
      case SignOutFailed => Redirect("/")
      case SignedOut => Redirect("/")
  }
}

=== FILE: auth_buttons.dfy ===
/** The server component of components/auth-buttons.tsx: the label shown for the signed-in
    user, and which of its three shapes the component renders. The Supabase `getUser`
    call is the input `user`; it is only consulted once both Supabase variables are set. */
module AuthButtons {
  import opened Optional
  import opened JsValue
  import opened Completion

  /** The parts of a Supabase user the label reads: `user_metadata.full_name`,
      `user_metadata.name` and `email`, each possibly absent. */
  datatype User = User(fullName: Option<string>, name: Option<string>, email: Option<string>)

  const FallbackLabel := "User"

  /** The label candidates in the order `||` tries them. */
  function Candidates(u: User): seq<Option<string>> {
    [u.fullName, u.name, u.email, Some(FallbackLabel)]
  }

  /** Entry `k` is the first truthy one. */
  predicate FirstTruthyAt(ts: seq<Option<string>>, k: int) {
    0 <= k < |ts| && TruthyText(ts[k]) && forall j | 0 <= j < k :: !TruthyText(ts[j])
  }

  /** A first truthy entry after a falsy head is the next one along in the whole list. */
  lemma FirstTruthyShift(ts: seq<Option<string>>, k: int)
    requires |ts| > 0 && !TruthyText(ts[0]) && FirstTruthyAt(ts[1..], k)
    ensures FirstTruthyAt(ts, k + 1) && ts[k + 1] == ts[1..][k]
  {
    forall j | 1 <= j < k + 1 ensures !TruthyText(ts[j]) {
      assert ts[j] == ts[1..][j - 1];
    }
  }

  /** The first truthy entry of a list of optional texts, `""` when there is none: the
      value of a chain `a || b || ...` ending in a truthy constant. */
  function FirstTruthy(ts: seq<Option<string>>): (r: string)
    ensures r != "" <==> exists k | 0 <= k < |ts| :: TruthyText(ts[k])
    ensures r != "" ==> exists k :: FirstTruthyAt(ts, k) && ts[k] == Some(r)
  {
    if |ts| == 0 then ""
    else if TruthyText(ts[0]) then
      assert FirstTruthyAt(ts, 0);
      ts[0].value
    else
      var rest := FirstTruthy(ts[1..]);
      assert forall k | 1 <= k < |ts| :: ts[k] == ts[1..][k - 1];
      assert rest != "" ==> exists k :: FirstTruthyAt(ts, k) && ts[k] == Some(rest) by {
        if rest != "" {
          var k :| FirstTruthyAt(ts[1..], k) && ts[1..][k] == Some(rest);
          FirstTruthyShift(ts, k);
        }
      }
      rest
  }

  /** `getUserLabel`: `""` without a user; otherwise the first truthy of the full name,
      the name and the email, else `User`. */
  function UserLabel(user: Option<User>): (r: string)
    ensures user.None? ==> r == ""
    ensures user.Some? ==> r != ""
    ensures user.Some? && TruthyText(user.value.fullName) ==> r == user.value.fullName.value
    ensures user.Some? && !TruthyText(user.value.fullName) && TruthyText(user.value.name) ==>
      r == user.value.name.value
    ensures (user.Some? && !TruthyText(user.value.fullName) && !TruthyText(user.value.name) &&
             TruthyText(user.value.email)) ==> r == user.value.email.value
    ensures (user.Some? && !TruthyText(user.value.fullName) && !TruthyText(user.value.name) &&
             !TruthyText(user.value.email)) ==> r == FallbackLabel
  {
    match user
    case None => ""
    case Some(u) =>
      OrElse(u.fullName, OrElse(u.name, OrElse(u.email, Some(FallbackLabel)))).value
  }

  /** The label of a user is the first truthy of its candidates, which is one of them. */
  lemma UserLabelIsFirstCandidate(u: User)
    ensures UserLabel(Some(u)) == FirstTruthy(Candidates(u))
    ensures Some(UserLabel(Some(u))) in Candidates(u)
  {
    var cs := Candidates(u);
    assert cs[1..] == [u.name, u.email, Some(FallbackLabel)];
    assert cs[1..][1..] == [u.email, Some(FallbackLabel)];
    assert cs[1..][1..][1..] == [Some(FallbackLabel)];
    assert FirstTruthy(cs[1..][1..][1..]) == FallbackLabel;
    assert FirstTruthy(cs[1..][1..]) == OrElse(u.email, Some(FallbackLabel)).value;
    assert FirstTruthy(cs[1..]) == OrElse(u.name, OrElse(u.email, Some(FallbackLabel))).value;
  }

  /** The three shapes of the component. */
  datatype View =
    | Nothing                                                  // `null`
    | SignOutForm(greeting: string, userLabel: string, button: string)
    | SignInForm(button: string)

  /** `AuthButtons`: nothing unless both Supabase variables are truthy; then the greeting
      and sign-out form for a user, the sign-in form otherwise, in the locale's words. */
  function Render(env: Env, locale: Locale, user: Option<User>): (r: View)
    ensures r.Nothing? <==> !TruthyText(env.supabaseUrl) || !TruthyText(env.supabaseAnonKey)
    ensures !r.Nothing? ==> (r.SignOutForm? <==> user.Some?)
    ensures r.SignOutForm? ==> r.userLabel == UserLabel(user) && r.userLabel != ""
    ensures r.SignOutForm? ==> r.greeting == (if locale == Zh then "你好" else "Hi")
    ensures r.SignOutForm? ==> r.button == (if locale == Zh then "退出登录" else "Sign out")
    ensures r.SignInForm? ==> r.button == (if locale == Zh then "使用 Google 登录" else "Sign in with Google")
  {
    if !TruthyText(env.supabaseUrl) || !TruthyText(env.supabaseAnonKey) then Nothing
    else if user.Some? then
      SignOutForm(if locale == Zh then "你好" else "Hi", UserLabel(user),
                  if locale == Zh then "退出登录" else "Sign out")
    else SignInForm(if locale == Zh then "使用 Google 登录" else "Sign in with Google")
  }

  /** With either Supabase variable missing the outcome does not depend on the user: the
      user is never looked up. */
  lemma MissingConfigurationIgnoresUser(env: Env, locale: Locale, u1: Option<User>, u2: Option<User>)
    requires !TruthyText(env.supabaseUrl) || !TruthyText(env.supabaseAnonKey)
    ensures Render(env, locale, u1) == Render(env, locale, u2) == Nothing
  {
  }
}

=== FILE: auth_callback.dfy ===
/** The `GET` handler of app/auth/callback/route.ts as a redirect decision over the
    authorization response's query parameters (`code`, `error`, `error_description`,
    section 4.1.2 and 4.1.2.1 of RFC 6749) and the site's own `next` parameter. The code
    exchange is the parameter `exchange`; the decision never applies it when an error
    parameter is truthy. Redirect targets are paths resolved against the request's
    origin; whether `new URL` accepts the sanitised `next` path there is the parameter
    `resolves`. */
module AuthCallback {
  import opened Optional
  import opened JsValue

  /** The query parameters; `None` is `searchParams.get` answering `null`. */
  datatype CallbackQuery = CallbackQuery(
    code: Option<string>,
    error: Option<string>,
    errorDescription: Option<string>,
    next: Option<string>)

  /** What creating the client and exchanging the code came to. */
  datatype Exchange = Threw | Failed | Exchanged

  /** Where the callback redirects, or the exception it does not catch. */
  datatype Target = AuthError | Next(path: string) | Uncaught

  /** `error_description ?? error`: the description whenever it is present, even empty. */
  function ErrorParam(q: CallbackQuery): (r: Option<string>)
    ensures q.errorDescription.Some? ==> r == q.errorDescription
    ensures q.errorDescription.None? ==> r == q.error
  {
    if q.errorDescription.Some? then q.errorDescription else q.error
  }

  /** `next ?? "/"`, then any value beginning with `http` replaced by `/`. */
  function NextPath(next: Option<string>): (r: string)
    ensures !StartsWith(r, "http")
    ensures next.None? ==> r == "/"
    ensures next.Some? && StartsWith(next.value, "http") ==> r == "/"
    ensures next.Some? && !StartsWith(next.value, "http") ==> r == next.value
  {
    var n := next.GetOr("/");
    if StartsWith(n, "http") then "/" else n
  }

  /** Sanitising twice is sanitising once. */
  lemma NextPathIdempotent(next: Option<string>)
    ensures NextPath(Some(NextPath(next))) == NextPath(next)
  {
  }

  /** The decision: the `next` address is built first, and an address `new URL` rejects
      is an uncaught exception; then a truthy error parameter sends the user to the error
      page; else a truthy code is exchanged, and a failed or throwing exchange also sends
      the user to the error page; otherwise the user goes to the sanitised `next` path. */
  function Get(q: CallbackQuery, resolves: string -> bool, exchange: string -> Exchange): (r: Target)
    ensures r == Uncaught <==> !resolves(NextPath(q.next))
    ensures r != Uncaught && TruthyText(ErrorParam(q)) ==> r == AuthError
    ensures r != Uncaught && !TruthyText(ErrorParam(q)) && TruthyText(q.code) ==>
      (r == AuthError <==> exchange(q.code.value) != Exchanged)
    ensures r.Next? <==>
      resolves(NextPath(q.next)) && !TruthyText(ErrorParam(q)) &&
      (!TruthyText(q.code) || exchange(q.code.value) == Exchanged)
    ensures r.Next? ==> r.path == NextPath(q.next)
  {
    if !resolves(NextPath(q.next)) then Uncaught
    else if TruthyText(ErrorParam(q)) then AuthError
    else if TruthyText(q.code) && exchange(q.code.value) != Exchanged then AuthError
    else Next(NextPath(q.next))
  }

  /** An error parameter wins over a code: the outcome is the same whatever the exchange
      would have done, so the code is never exchanged. */
  lemma ErrorBeatsCode(q: CallbackQuery, resolves: string -> bool, exchange1: string -> Exchange,
                       exchange2: string -> Exchange)
    requires resolves(NextPath(q.next)) && TruthyText(ErrorParam(q))
    ensures Get(q, resolves, exchange1) == Get(q, resolves, exchange2) == AuthError
  {
  }

  /** A present but empty `error_description` hides a truthy `error`: `??` keeps the
      empty string, which is falsy, so the code is exchanged as if there were no error. */
  lemma EmptyDescriptionHidesError(q: CallbackQuery, resolves: string -> bool, exchange: string -> Exchange)
    requires q.errorDescription == Some("") && TruthyText(q.error)
    requires TruthyText(q.code) && exchange(q.code.value) == Exchanged
    requires resolves(NextPath(q.next))
    ensures Get(q, resolves, exchange) == Next(NextPath(q.next))
  {
  }

  /** The sanitiser only looks for the `http` prefix: a protocol-relative `next` such as
      `//host/path` passes through unchanged. */
  lemma ProtocolRelativePassesThrough(rest: string)
    ensures NextPath(Some("//" + rest)) == "//" + rest
  {
    assert ("//" + rest)[0] == '/';
  }
}

=== FILE: completion.dfy ===
/** What the two API routes share once the prompt is built: the configuration they read,
    the locale rule, the upstream chat-completion result taken as an input, the response
    they answer with, and the decision chain that turns the upstream result into that
    response (upstream status, then content, then parse). */
module Completion {
  import opened Optional
  import opened JsValue
  import opened ResponseDecoder

  /** The environment variables the core reads, passed in rather than read ambiently. */
  datatype Env = Env(
    openRouterApiKey: Option<string>,   // OPENROUTER_API_KEY
    publicSiteUrl: Option<string>,      // NEXT_PUBLIC_SITE_URL
    supabaseUrl: Option<string>,        // NEXT_PUBLIC_SUPABASE_URL
    supabaseAnonKey: Option<string>)    // NEXT_PUBLIC_SUPABASE_ANON_KEY

  datatype Locale = En | Zh

  /** `body.locale === "zh" ? "zh" : "en"`. */
  function NormalizeLocale(raw: Option<string>): (r: Locale)
    ensures r == Zh <==> raw == Some("zh")
    ensures r == En <==> raw != Some("zh")
  {
    if raw == Some("zh") then Zh else En
  }

  /** The value of the user prompt's output-language line, which both routes write as
      `locale === "zh" ? "中文" : "English"`. */
  function LanguageName(locale: Locale): (r: string)
    ensures r == "中文" <==> locale.Zh?
    ensures r == "English" <==> locale.En?
  {
    match locale
    case Zh => "中文"
    case En => "English"
  }

  /** The messages sent upstream: the fixed system prompt for the locale (its wording is
      not modelled) and the user prompt. */
  datatype UpstreamRequest = UpstreamRequest(locale: Locale, user: string)

  /** The outcome of the upstream `fetch`: it threw, or it answered with a status and a
      body text. `response.json()` is the same `parse` applied to that text. */
  datatype Upstream = Threw | Replied(status: int, text: string)

  /** `response.ok`. */
  predicate Ok(status: int) {
    200 <= status <= 299
  }

  /** Whether `NextResponse.json` can answer with this status: the Fetch Standard's
      `Response` constructor throws for a status outside 200 to 599, and for a status
      that may not carry a body (204, 205, 304). */
  predicate Representable(status: int) {
    200 <= status <= 599 && status != 204 && status != 205 && status != 304
  }

  /** The JSON bodies the routes answer with. */
  datatype Body =
    | Error(error: string)                             // { error }
    | UpstreamFailure(error: string, details: string)  // { error, details }
    | NoContent(error: string, choice: Option<Json>)   // { error, debug: { choice } }
    | Unparsed(error: string, raw: string)             // { error, raw }
    | Payload(value: Json)                             // the decoded value itself

  datatype Response = Response(status: int, body: Body)

  /** The first step of either route, before any upstream call: an early answer, or the
      call to make. */
  datatype Step = Reject(response: Response) | Call(request: UpstreamRequest)

  const RequestFailed := "请求模型失败"
  const NoModelOutput := "未获取到模型输出"
  const ParseFailed := "解析模型输出失败"
  const MissingApiKey := "缺少 OPENROUTER_API_KEY"

  /** `data?.choices?.[0]`: only the first choice is ever looked at. */
  function Choice(data: Json): (r: Option<Json>)
    ensures !data.Obj? || "choices" !in data.props ==> r == None
    ensures data.Obj? && "choices" in data.props ==> r == Index0(Some(data.props["choices"]))
    ensures (data.Obj? && "choices" in data.props && data.props["choices"].Arr? &&
             |data.props["choices"].elems| > 0) ==> r == Some(data.props["choices"].elems[0])
    ensures (data.Obj? && "choices" in data.props && data.props["choices"].Arr? &&
             |data.props["choices"].elems| == 0) ==> r == None
    ensures (data.Obj? && "choices" in data.props &&
             (data.props["choices"].Null? || data.props["choices"].Bool? || data.props["choices"].Num?)) ==> r == None
  {
    Index0(Field(Some(data), "choices"))
  }

  /** `choice?.message ?? choice`: the choice's message unless that is `null` or
      `undefined`, in which case the choice itself. */
  function MessageOf(choice: Option<Json>): (r: Option<Json>)
    ensures Field(choice, "message").Some? && Field(choice, "message") != Some(Null) ==>
      r == Field(choice, "message")
    ensures Field(choice, "message").None? || Field(choice, "message") == Some(Null) ==>
      r == choice
  {
    var m := Field(choice, "message");
    if m.None? || m == Some(Null) then choice else m
  }

  /** The text the routes decode out of a parsed upstream body: nothing without a first
      choice. */
  function BodyContent(data: Json): (r: Option<string>)
    ensures Choice(data).None? ==> r == None
    ensures r.Some? ==> Choice(data).Some?
  {
    Content(MessageOf(Choice(data)))
  }

  /** The decision chain after the upstream call; `failure` is the route's own message
      for a non-ok upstream status. */
  function Respond(failure: string, parse: string -> Option<Json>, up: Upstream): (r: Response)
    // a non-ok upstream status is passed on, with the upstream body as details, when a
    // response can carry it
    ensures r.body.UpstreamFailure? <==> up.Replied? && !Ok(up.status) && Representable(up.status)
    ensures r.body.UpstreamFailure? ==> r == Response(up.status, UpstreamFailure(failure, up.text))
    // every other failure is a 500, and 200 means success
    ensures !r.body.UpstreamFailure? && !r.body.Payload? ==> r.status == 500
    ensures r.status == 200 <==> r.body.Payload?
    // success exactly when the body parses, has content, and that content decodes to a truthy value
    ensures r.body.Payload? <==>
      up.Replied? && Ok(up.status) && parse(up.text).Some? &&
      TruthyText(BodyContent(parse(up.text).value)) &&
      TruthyJson(ExtractJson(parse, BodyContent(parse(up.text).value).value))
    ensures r.body.Payload? ==>
      r.body.value == ExtractJson(parse, BodyContent(parse(up.text).value).value)
    // the diagnostics carried by the two decoding failures
    ensures r.body.NoContent? ==>
      up.Replied? && parse(up.text).Some? && r.body.choice == Choice(parse(up.text).value) &&
      !TruthyText(BodyContent(parse(up.text).value))
    ensures r.body.Unparsed? ==>
      up.Replied? && parse(up.text).Some? && Some(r.body.raw) == BodyContent(parse(up.text).value) &&
      !TruthyJson(ExtractJson(parse, r.body.raw))
    // a missing content, and a content that decodes to nothing truthy, are 500s with
    // their own messages and diagnostics
    ensures (up.Replied? && Ok(up.status) && parse(up.text).Some? &&
             !TruthyText(BodyContent(parse(up.text).value))) ==>
      r == Response(500, NoContent(NoModelOutput, Choice(parse(up.text).value)))
    ensures (up.Replied? && Ok(up.status) && parse(up.text).Some? &&
             TruthyText(BodyContent(parse(up.text).value)) &&
             !TruthyJson(ExtractJson(parse, BodyContent(parse(up.text).value).value))) ==>
      r == Response(500, Unparsed(ParseFailed, BodyContent(parse(up.text).value).value))
    // a throwing fetch, a body that is not JSON, and a status no response can carry are
    // the catch-all failure
    ensures (up.Threw? || (up.Replied? && Ok(up.status) && parse(up.text).None?) ||
             (up.Replied? && !Ok(up.status) && !Representable(up.status))) ==>
      r == Response(500, Error(RequestFailed))
  {
    match up
    case Threw => Response(500, Error(RequestFailed))
    case Replied(status, text) =>
      if !Ok(status) then
        if Representable(status) then Response(status, UpstreamFailure(failure, text))
        else Response(500, Error(RequestFailed))
      else match parse(text)
        case None => Response(500, Error(RequestFailed))
        case Some(data) =>
          var choice := Choice(data);
          var content := Content(MessageOf(choice));
          if !TruthyText(content) then Response(500, NoContent(NoModelOutput, choice))
          else
            var parsed := ExtractJson(parse, content.value);
            if !TruthyJson(parsed) then Response(500, Unparsed(ParseFailed, content.value))
            else Response(200, Payload(parsed))
  }

  /** The standard reply shape, `{ choices: [{ message: { content } }] }`, reads as its
      content when that is a non-empty text. */
  lemma StandardReplyContent(content: string)
    requires content != ""
    ensures BodyContent(Obj(map["choices" := Arr([Obj(map["message" := Obj(map["content" := Str(content)])])])]))
      == Some(content)
  {
    var message := Obj(map["content" := Str(content)]);
    var choice := Obj(map["message" := message]);
    var data := Obj(map["choices" := Arr([choice])]);
    assert "choices" in data.props && "message" in choice.props;
    assert Choice(data) == Some(choice);
    assert MessageOf(Some(choice)) == Some(message);
    assert "text" !in message.props && "content" in message.props;
    assert Extract(message) == Some(content);
    assert Attempts(Some(message))[0] == Some(content);
  }

  /** When the content parses as a whole to a truthy value, that value is the response,
      unchanged. */
  lemma PayloadIsVerbatim(failure: string, parse: string -> Option<Json>, status: int, text: string, data: Json, v: Json)
    requires Ok(status) && parse(text) == Some(data)
    requires TruthyText(BodyContent(data)) && parse(BodyContent(data).value) == Some(v)
    requires TruthyJson(v)
    ensures Respond(failure, parse, Replied(status, text)) == Response(200, Payload(v))
  {
  }

  /** A content that parses as a whole to `null`, `false`, `0` or `""` is a parse
      failure: the brace fallback is not tried, and the raw content is returned. */
  lemma FalsyParseIsFailure(failure: string, parse: string -> Option<Json>, status: int, text: string, data: Json, v: Json)
    requires Ok(status) && parse(text) == Some(data)
    requires TruthyText(BodyContent(data)) && parse(BodyContent(data).value) == Some(v)
    requires !TruthyJson(v)
    ensures Respond(failure, parse, Replied(status, text)) ==
      Response(500, Unparsed(ParseFailed, BodyContent(data).value))
  {
  }
}

=== FILE: explain_name.dfy ===
/** The `POST` handler of app/api/explain-name/route.ts. The route carries its own copy
    of the decoder; it is transcribed here as written and proved to compute what the
    name-generation route's copy computes on every input, which is why the shared
    decision chain `Completion.Respond` serves both routes. The one regular expression
    both copies use is modelled once, by `ResponseDecoder.BraceMatch`. */
module ExplainName {
  import opened Optional
  import opened JsValue
  import opened Completion
  import ResponseDecoder

  // ---- the route's own copy of the decoder ----

  /** `tryExtract`, as this route writes it, on a present value: it computes what the
      generation route's copy computes, on every value. */
  function Extract(v: Json): (r: Option<string>)
    ensures r == ResponseDecoder.Extract(v)
    decreases v, 1
  {
    if !TruthyJson(v) then None
    else match v
      case Str(s) => Some(s)
      case Arr(elems) => Some(Join(Parts(elems), "\n"))
      case Obj(props) =>
        if "text" in props && props["text"].Str? then Some(props["text"].str)
        else if "content" in props && props["content"].Arr? then Some(Join(Parts(props["content"].elems), "\n"))
        else if "content" in props && props["content"].Str? then Some(props["content"].str)
        else None
      case _ => None
  }

  /** `parts.map(tryExtract).filter(Boolean)`, the same parts as the generation route's. */
  function Parts(elems: seq<Json>): (r: seq<string>)
    ensures r == ResponseDecoder.Parts(elems)
    decreases elems, 0
  {
    if |elems| == 0 then []
    else
      var first := Extract(elems[0]);
      (if TruthyText(first) then [first.value] else []) + Parts(elems[1..])
  }

  function TryExtract(v: Option<Json>): (r: Option<string>)
    ensures r == ResponseDecoder.TryExtract(v)
  {
    match v
    case None => None
    case Some(j) => Extract(j)
  }

  /** `extractContent`, as this route writes it: the generation route's result on every
      message. */
  function ExtractContent(message: Option<Json>): (r: Option<string>)
    ensures r == ResponseDecoder.ExtractContent(message)
  {
    if !Truthy(message) then None
    else
      OrElse(TryExtract(message),
      OrElse(TryExtract(Field(message, "content")),
      OrElse(TryExtract(Index0(message)),
      OrElse(TryExtract(Field(message, "message")),
             TryExtract(Field(message, "delta"))))))
  }

  /** `extractJson`, as this route writes it: the generation route's result on every
      text. Both copies use the same regular expression, modelled once as
      `ResponseDecoder.BraceMatch`. */
  function ExtractJson(parse: string -> Option<Json>, content: string): (r: Json)
    ensures r == ResponseDecoder.ExtractJson(parse, content)
  {
    match parse(content)
    case Some(v) => v
    case None =>
      match ResponseDecoder.BraceMatch(content)
      case Some(span) => parse(span).GetOr(Null)
      case None => Null
  }

  // ---- the request and the handler ----

  /** The request body, typed as the route declares it. */
  datatype ExplainRequest = ExplainRequest(name: Option<string>, context: Option<string>, locale: Option<string>)

  const MissingName := "请输入中文名"
  const ExplanationFailed := "解读失败"

  datatype Heading = Name | Context | Language {
    /** The heading's wording in the prompt; no label holds a colon or a newline, so a
        line's label ends at its first colon. */
    function Label(): (r: string)
      ensures |r| > 0 && ':' !in r && '\n' !in r
    {
      match this
      case Name => "名字"
      case Context => "补充说明"
      case Language => "输出语言"
    }
  }

  /** One line `heading: value` of the user prompt. */
  datatype Line = Line(heading: Heading, value: string) {
    /** The line as the template literal writes it: the label, a colon and a space,
        then the value. */
    function Text(): (r: string)
      ensures StartsWith(r, heading.Label() + ": ")
      ensures r[|heading.Label()| + 2..] == value
    {
      heading.Label() + ": " + value
    }
  }

  /** Different headings have different labels. */
  lemma LabelsDistinct(a: Heading, b: Heading)
    ensures a.Label() == b.Label() ==> a == b
  {
  }

  /** A line's text determines its heading and its value: the label ends at the first
      colon, and the value follows the colon and the space. */
  lemma TextDeterminesLine(a: Line, b: Line)
    ensures a.Text() == b.Text() ==> a == b
  {
    LabelledTextsAgree(a.heading.Label(), a.value, b.heading.Label(), b.value);
    LabelsDistinct(a.heading, b.heading);
  }

  /** The user prompt's lines: the name first, the context only when it is truthy, the
      output language last. */
  function PromptLines(name: string, context: Option<string>, locale: Locale): (r: seq<Line>)
    ensures |r| == (if TruthyText(context) then 3 else 2)
    ensures r[0] == Line(Name, name)
    ensures TruthyText(context) ==> r[1] == Line(Context, context.value)
    ensures r[|r| - 1] == Line(Language, LanguageName(locale))
    ensures forall k | 0 <= k < |r| :: r[k].heading == Context ==> TruthyText(context)
  {
    [Line(Name, name)]
    + (if TruthyText(context) then [Line(Context, context.value)] else [])
    + [Line(Language, LanguageName(locale))]
  }

  /** The texts of the lines, in order. Each route has its own `Line` type, over its
      own headings, so each has its own `Texts`. */
  function Texts(lines: seq<Line>): (r: seq<string>)
    ensures |r| == |lines|
    ensures forall k | 0 <= k < |lines| :: r[k] == lines[k].Text()
  {
    seq(|lines|, k requires 0 <= k < |lines| => lines[k].Text())
  }

  /** The user prompt: the lines joined with newlines, so it opens with the name line
      and closes with the language line. */
  function UserPrompt(name: string, context: Option<string>, locale: Locale): (r: string)
    ensures StartsWith(r, Line(Name, name).Text())
    ensures EndsWith(r, Line(Language, LanguageName(locale)).Text())
  {
    Join(Texts(PromptLines(name, context, locale)), "\n")
  }

  /** When neither the name nor the context holds a newline, the prompt splits back into
      its lines. */
  lemma PromptSplitsIntoLines(name: string, context: Option<string>, locale: Locale)
    requires '\n' !in name
    requires context.Some? ==> '\n' !in context.value
    ensures Split(UserPrompt(name, context, locale), '\n') == Texts(PromptLines(name, context, locale))
  {
    var lines := PromptLines(name, context, locale);
    forall k | 0 <= k < |lines| ensures '\n' !in Texts(lines)[k] {
      var line := lines[k];
      assert '\n' !in line.heading.Label() + ": ";
      assert '\n' !in line.value;
    }
    SplitJoin(Texts(lines), '\n');
  }

  /** A missing or empty name is a 400 before the configuration is looked at; a missing
      key is a 500; only then is the call prepared, for the normalised locale. */
  function Prepare(req: ExplainRequest, env: Env): (r: Step)
    ensures r.Reject? <==> !TruthyText(req.name) || !TruthyText(env.openRouterApiKey)
    ensures !TruthyText(req.name) ==> r == Reject(Response(400, Error(MissingName)))
    ensures TruthyText(req.name) && !TruthyText(env.openRouterApiKey) ==>
      r == Reject(Response(500, Error(MissingApiKey)))
    ensures r.Call? ==> (r.request.locale == Zh <==> req.locale == Some("zh"))
    ensures r.Call? ==> r.request.user == UserPrompt(req.name.value, req.context, r.request.locale)
  {
    if !TruthyText(req.name) then Reject(Response(400, Error(MissingName)))
    else if !TruthyText(env.openRouterApiKey) then Reject(Response(500, Error(MissingApiKey)))
    else
      var locale := NormalizeLocale(req.locale);
      Call(UpstreamRequest(locale, UserPrompt(req.name.value, req.context, locale)))
  }

  /** The whole handler: a rejected request never applies `fetch`; an accepted one
      classifies the upstream result for exactly its prompt. */
  function Post(req: ExplainRequest, env: Env, parse: string -> Option<Json>, fetch: UpstreamRequest -> Upstream): (r: Response)
    ensures !TruthyText(req.name) ==> r == Response(400, Error(MissingName))
    ensures TruthyText(req.name) && !TruthyText(env.openRouterApiKey) ==> r == Response(500, Error(MissingApiKey))
    ensures TruthyText(req.name) && TruthyText(env.openRouterApiKey) ==>
      var locale := NormalizeLocale(req.locale);
      r == Respond(ExplanationFailed, parse, fetch(UpstreamRequest(locale, UserPrompt(req.name.value, req.context, locale))))
    ensures r.status == 200 ==> TruthyText(req.name) && TruthyText(env.openRouterApiKey) && r.body.Payload?
  {
    match Prepare(req, env)
    case Reject(response) => response
    case Call(request) => Respond(ExplanationFailed, parse, fetch(request))
  }
}

=== FILE: generate_names.dfy ===
/** The `POST` handler of app/api/generate-names/route.ts reduced to a decision: validate
    the request, check the configuration, build the user prompt, and classify the
    upstream result. The upstream call is the parameter `fetch`; a rejected request
    never applies it. */
module GenerateNames {
  import opened Optional
  import opened JsValue
  import opened Completion

  /** The request body, typed as the route declares it. */
  datatype NameRequest = NameRequest(
    surname: Option<string>,
    gender: Option<string>,
    birthDateTime: Option<string>,
    expectations: Option<seq<string>>,
    avoidChars: Option<string>,
    nameLengthPreference: Option<string>,
    locale: Option<string>)

  const MissingFields := "姓氏与性别为必填项"
  const GenerationFailed := "生成失败"

  /** The headings of the user prompt's lines. */
  datatype Heading = Surname | Gender | Birth | Expectations | Avoid | Length | Language {
    /** The position of the heading in the prompt template. */
    function Order(): nat {
      match this
      case Surname => 0
      case Gender => 1
      case Birth => 2
      case Expectations => 3
      case Avoid => 4
      case Length => 5
      case Language => 6
    }

    /** The heading's wording in the prompt; no label holds a colon or a newline, so a
        line's label ends at its first colon. */
    function Label(): (r: string)
      ensures |r| > 0 && ':' !in r && '\n' !in r
    {
      match this
      case Surname => "姓氏"
      case Gender => "性别"
      case Birth => "出生日期时辰"
      case Expectations => "父母期望"
      case Avoid => "避讳字"
      case Length => "字数偏好"
      case Language => "输出语言"
    }
  }

  /** One line `heading: value` of the user prompt. */
  datatype Line = Line(heading: Heading, value: string) {
    /** The line as the template literal writes it: the label, a colon and a space,
        then the value. */
    function Text(): (r: string)
      ensures StartsWith(r, heading.Label() + ": ")
      ensures r[|heading.Label()| + 2..] == value
    {
      heading.Label() + ": " + value
    }
  }

  /** Different headings have different labels. */
  lemma LabelsDistinct(a: Heading, b: Heading)
    ensures a.Label() == b.Label() ==> a == b
  {
  }

  /** A line's text determines its heading and its value: the label ends at the first
      colon, and the value follows the colon and the space. */
  lemma TextDeterminesLine(a: Line, b: Line)
    ensures a.Text() == b.Text() ==> a == b
  {
    LabelledTextsAgree(a.heading.Label(), a.value, b.heading.Label(), b.value);
    LabelsDistinct(a.heading, b.heading);
  }

  /** `body.surname && body.gender`: both required fields are truthy. */
  predicate HasRequiredFields(req: NameRequest) {
    TruthyText(req.surname) && TruthyText(req.gender)
  }

  /** A line for an optional field, present when the field is truthy. */
  function OptionalLine(heading: Heading, field: Option<string>): (r: seq<Line>)
    ensures |r| <= 1
    ensures |r| == 1 <==> TruthyText(field)
    ensures |r| == 1 ==> r[0] == Line(heading, field.value)
  {
    if TruthyText(field) then [Line(heading, field.value)] else []
  }

  /** The expectations line, present when the list is non-empty; the items are joined
      with `、`. */
  function ExpectationsLine(expectations: Option<seq<string>>): (r: seq<Line>)
    ensures |r| <= 1
    ensures |r| == 1 <==> expectations.Some? && |expectations.value| > 0
    ensures |r| == 1 ==> r[0] == Line(Expectations, Join(expectations.value, "、"))
  {
    if expectations.Some? && |expectations.value| > 0
    then [Line(Expectations, Join(expectations.value, "、"))]
    else []
  }

  /** The length preference line: `single` reads 单字, any other truthy value 双字. */
  function LengthLine(preference: Option<string>): (r: seq<Line>)
    ensures |r| == 1 <==> TruthyText(preference)
    ensures |r| == 1 ==> r[0] == Line(Length, if preference == Some("single") then "单字" else "双字")
    ensures |r| <= 1
  {
    if TruthyText(preference)
    then [Line(Length, if preference.value == "single" then "单字" else "双字")]
    else []
  }

  /** The headings of the lines, in order. */
  function Headings(lines: seq<Line>): (r: seq<Heading>)
    ensures |r| == |lines|
    ensures forall k | 0 <= k < |lines| :: r[k] == lines[k].heading
  {
    seq(|lines|, k requires 0 <= k < |lines| => lines[k].heading)
  }

  lemma HeadingsAppend(a: seq<Line>, b: seq<Line>)
    ensures Headings(a + b) == Headings(a) + Headings(b)
  {
  }

  /** The headings follow the order of the prompt template, so none occurs twice. */
  predicate Ascending(hs: seq<Heading>) {
    forall i, j | 0 <= i < j < |hs| :: hs[i].Order() < hs[j].Order()
  }

  /** Every heading comes before position `n` of the template. */
  predicate Below(hs: seq<Heading>, n: nat) {
    forall k | 0 <= k < |hs| :: hs[k].Order() < n
  }

  /** Appending at most one heading that comes after every heading so far keeps the
      headings ascending. */
  lemma AppendAscending(a: seq<Heading>, opt: seq<Heading>, h: Heading, next: nat)
    requires Ascending(a) && Below(a, h.Order())
    requires opt == [] || opt == [h]
    requires h.Order() < next
    ensures Ascending(a + opt) && Below(a + opt, next)
  {
  }

  /** An optional slot of the template: empty, or holding its own heading. */
  predicate Slot(hs: seq<Heading>, h: Heading) {
    hs == [] || hs == [h]
  }

  /** The headings of the template's seven slots, four of them optional. */
  function Template(h1: seq<Heading>, h2: seq<Heading>, h3: seq<Heading>, h4: seq<Heading>): seq<Heading> {
    [Surname, Gender] + h1 + h2 + h3 + h4 + [Language]
  }

  /** An optional heading is in the template exactly when its slot is filled. */
  lemma TemplateMembership(h1: seq<Heading>, h2: seq<Heading>, h3: seq<Heading>, h4: seq<Heading>)
    requires Slot(h1, Birth) && Slot(h2, Expectations) && Slot(h3, Avoid) && Slot(h4, Length)
    ensures Birth in Template(h1, h2, h3, h4) <==> h1 == [Birth]
    ensures Expectations in Template(h1, h2, h3, h4) <==> h2 == [Expectations]
    ensures Avoid in Template(h1, h2, h3, h4) <==> h3 == [Avoid]
    ensures Length in Template(h1, h2, h3, h4) <==> h4 == [Length]
  {
  }

  /** However the optional slots are filled, the template's headings are in order. */
  lemma TemplateOrder(h1: seq<Heading>, h2: seq<Heading>, h3: seq<Heading>, h4: seq<Heading>)
    requires Slot(h1, Birth) && Slot(h2, Expectations) && Slot(h3, Avoid) && Slot(h4, Length)
    ensures Ascending(Template(h1, h2, h3, h4))
  {
    var h0 := [Surname, Gender];
    assert Ascending(h0) && Below(h0, 2);
    var a1 := h0 + h1;
    AppendAscending(h0, h1, Birth, 3);
    var a2 := a1 + h2;
    AppendAscending(a1, h2, Expectations, 4);
    var a3 := a2 + h3;
    AppendAscending(a2, h3, Avoid, 5);
    var a4 := a3 + h4;
    AppendAscending(a3, h4, Length, 6);
    AppendAscending(a4, [Language], Language, 7);
  }

  /** The headings of a concatenation of line groups. */
  lemma TemplateHeadings(l0: seq<Line>, o1: seq<Line>, o2: seq<Line>, o3: seq<Line>, o4: seq<Line>, last: seq<Line>)
    ensures Headings(l0 + o1 + o2 + o3 + o4 + last) ==
      Headings(l0) + Headings(o1) + Headings(o2) + Headings(o3) + Headings(o4) + Headings(last)
  {
    HeadingsAppend(l0, o1);
    HeadingsAppend(l0 + o1, o2);
    HeadingsAppend(l0 + o1 + o2, o3);
    HeadingsAppend(l0 + o1 + o2 + o3, o4);
    HeadingsAppend(l0 + o1 + o2 + o3 + o4, last);
  }

  /** The template's line groups in order, before the `null` entries are dropped. */
  function Assemble(req: NameRequest, locale: Locale): seq<Line>
    requires req.surname.Some? && req.gender.Some?
  {
    [Line(Surname, req.surname.value), Line(Gender, req.gender.value)]
    + OptionalLine(Birth, req.birthDateTime)
    + ExpectationsLine(req.expectations)
    + OptionalLine(Avoid, req.avoidChars)
    + LengthLine(req.nameLengthPreference)
    + [Line(Language, LanguageName(locale))]
  }

  /** The headings of the assembled lines: the optional ones exactly for the filled
      fields, all in the template's order. */
  lemma AssembledHeadings(req: NameRequest, locale: Locale)
    requires req.surname.Some? && req.gender.Some?
    ensures Birth in Headings(Assemble(req, locale)) <==> TruthyText(req.birthDateTime)
    ensures Expectations in Headings(Assemble(req, locale)) <==>
      req.expectations.Some? && |req.expectations.value| > 0
    ensures Avoid in Headings(Assemble(req, locale)) <==> TruthyText(req.avoidChars)
    ensures Length in Headings(Assemble(req, locale)) <==> TruthyText(req.nameLengthPreference)
    ensures Ascending(Headings(Assemble(req, locale)))
  {
    var l0 := [Line(Surname, req.surname.value), Line(Gender, req.gender.value)];
    var o1 := OptionalLine(Birth, req.birthDateTime);
    var o2 := ExpectationsLine(req.expectations);
    var o3 := OptionalLine(Avoid, req.avoidChars);
    var o4 := LengthLine(req.nameLengthPreference);
    var last := [Line(Language, LanguageName(locale))];
    TemplateHeadings(l0, o1, o2, o3, o4, last);
    assert Headings(l0) == [Surname, Gender];
    assert Headings(last) == [Language];
    assert Headings(Assemble(req, locale)) == Template(Headings(o1), Headings(o2), Headings(o3), Headings(o4));
    TemplateMembership(Headings(o1), Headings(o2), Headings(o3), Headings(o4));
    TemplateOrder(Headings(o1), Headings(o2), Headings(o3), Headings(o4));
  }

  /** The line a field fills in carries that field's value, as the template writes it. */
  predicate FromFields(req: NameRequest, locale: Locale, line: Line)
    requires req.surname.Some? && req.gender.Some?
  {
    match line.heading
    case Surname => line.value == req.surname.value
    case Gender => line.value == req.gender.value
    case Birth => req.birthDateTime == Some(line.value)
    case Expectations => req.expectations.Some? && line.value == Join(req.expectations.value, "、")
    case Avoid => req.avoidChars == Some(line.value)
    case Length => line.value == "单字" || line.value == "双字"
    case Language => line.value == LanguageName(locale)
  }

  predicate AllFromFields(req: NameRequest, locale: Locale, lines: seq<Line>)
    requires req.surname.Some? && req.gender.Some?
  {
    forall k | 0 <= k < |lines| :: FromFields(req, locale, lines[k])
  }

  lemma AllFromFieldsAppend(req: NameRequest, locale: Locale, a: seq<Line>, b: seq<Line>)
    requires req.surname.Some? && req.gender.Some?
    requires AllFromFields(req, locale, a) && AllFromFields(req, locale, b)
    ensures AllFromFields(req, locale, a + b)
  {
    forall k | 0 <= k < |a + b| ensures FromFields(req, locale, (a + b)[k]) {
      if k >= |a| {
        assert (a + b)[k] == b[k - |a|];
      }
    }
  }

  /** Every assembled line carries its own field's value: nothing else enters the prompt. */
  lemma AssembledFromFields(req: NameRequest, locale: Locale)
    requires req.surname.Some? && req.gender.Some?
    ensures AllFromFields(req, locale, Assemble(req, locale))
  {
    var l0 := [Line(Surname, req.surname.value), Line(Gender, req.gender.value)];
    var o1 := OptionalLine(Birth, req.birthDateTime);
    var o2 := ExpectationsLine(req.expectations);
    var o3 := OptionalLine(Avoid, req.avoidChars);
    var o4 := LengthLine(req.nameLengthPreference);
    var last := [Line(Language, LanguageName(locale))];
    assert AllFromFields(req, locale, l0);
    assert AllFromFields(req, locale, o1);
    assert AllFromFields(req, locale, o2);
    assert AllFromFields(req, locale, o3);
    assert AllFromFields(req, locale, o4);
    assert AllFromFields(req, locale, last);
    AllFromFieldsAppend(req, locale, l0, o1);
    AllFromFieldsAppend(req, locale, l0 + o1, o2);
    AllFromFieldsAppend(req, locale, l0 + o1 + o2, o3);
    AllFromFieldsAppend(req, locale, l0 + o1 + o2 + o3, o4);
    AllFromFieldsAppend(req, locale, l0 + o1 + o2 + o3 + o4, last);
  }

  /** The user prompt's lines, before they are joined: surname and gender first, the
      output language last, and in between one line per truthy optional field, all in
      the template's order and each carrying its own field's value. */
  function PromptLines(req: NameRequest, locale: Locale): (r: seq<Line>)
    requires req.surname.Some? && req.gender.Some?
    ensures 3 <= |r| <= 7
    ensures r[0] == Line(Surname, req.surname.value)
    ensures r[1] == Line(Gender, req.gender.value)
    ensures r[|r| - 1] == Line(Language, LanguageName(locale))
    ensures Birth in Headings(r) <==> TruthyText(req.birthDateTime)
    ensures Expectations in Headings(r) <==> req.expectations.Some? && |req.expectations.value| > 0
    ensures Avoid in Headings(r) <==> TruthyText(req.avoidChars)
    ensures Length in Headings(r) <==> TruthyText(req.nameLengthPreference)
    ensures TruthyText(req.birthDateTime) ==> Line(Birth, req.birthDateTime.value) in r
    ensures req.expectations.Some? && |req.expectations.value| > 0 ==>
      Line(Expectations, Join(req.expectations.value, "、")) in r
    ensures TruthyText(req.avoidChars) ==> Line(Avoid, req.avoidChars.value) in r
    ensures TruthyText(req.nameLengthPreference) ==>
      Line(Length, if req.nameLengthPreference == Some("single") then "单字" else "双字") in r
    ensures Ascending(Headings(r))
    ensures AllFromFields(req, locale, r)
  {
    AssembledHeadings(req, locale);
    AssembledFromFields(req, locale);
    Assemble(req, locale)
  }

  /** The texts of the lines, in order. Each route has its own `Line` type, over its
      own headings, so each has its own `Texts`. */
  function Texts(lines: seq<Line>): (r: seq<string>)
    ensures |r| == |lines|
    ensures forall k | 0 <= k < |lines| :: r[k] == lines[k].Text()
  {
    seq(|lines|, k requires 0 <= k < |lines| => lines[k].Text())
  }

  /** The user prompt: the lines joined with newlines, so it opens with the surname
      line and closes with the language line. */
  function UserPrompt(req: NameRequest, locale: Locale): (r: string)
    requires req.surname.Some? && req.gender.Some?
    ensures StartsWith(r, Line(Surname, req.surname.value).Text())
    ensures EndsWith(r, Line(Language, LanguageName(locale)).Text())
  {
    Join(Texts(PromptLines(req, locale)), "\n")
  }

  /** No value the request hands to the template holds a newline. */
  predicate NoNewlines(req: NameRequest) {
    && (req.surname.Some? ==> '\n' !in req.surname.value)
    && (req.gender.Some? ==> '\n' !in req.gender.value)
    && (req.birthDateTime.Some? ==> '\n' !in req.birthDateTime.value)
    && (req.avoidChars.Some? ==> '\n' !in req.avoidChars.value)
    && (req.expectations.Some? ==>
          forall k | 0 <= k < |req.expectations.value| :: '\n' !in req.expectations.value[k])
  }

  /** A line filled from a request without newlines holds none. */
  lemma LineAvoidsNewline(req: NameRequest, locale: Locale, line: Line)
    requires req.surname.Some? && req.gender.Some? && NoNewlines(req)
    requires FromFields(req, locale, line)
    ensures '\n' !in line.Text()
  {
    if line.heading == Expectations {
      JoinAvoids(req.expectations.value, "、", '\n');
    }
    assert '\n' !in line.heading.Label() + ": ";
  }

  /** When no field value holds a newline, the prompt splits back into its lines. */
  lemma PromptSplitsIntoLines(req: NameRequest, locale: Locale)
    requires req.surname.Some? && req.gender.Some? && NoNewlines(req)
    ensures Split(UserPrompt(req, locale), '\n') == Texts(PromptLines(req, locale))
  {
    var lines := PromptLines(req, locale);
    var texts := Texts(lines);
    forall k | 0 <= k < |texts| ensures '\n' !in texts[k] {
      LineAvoidsNewline(req, locale, lines[k]);
    }
    SplitJoin(texts, '\n');
  }

  /** Validation comes before the configuration check, and both before the call. */
  function Prepare(req: NameRequest, env: Env): (r: Step)
    ensures r.Reject? <==> !HasRequiredFields(req) || !TruthyText(env.openRouterApiKey)
    ensures !HasRequiredFields(req) ==> r == Reject(Response(400, Error(MissingFields)))
    ensures HasRequiredFields(req) && !TruthyText(env.openRouterApiKey) ==>
      r == Reject(Response(500, Error(MissingApiKey)))
    ensures r.Call? ==> r.request.locale == NormalizeLocale(req.locale)
    ensures r.Call? ==> r.request.user == UserPrompt(req, NormalizeLocale(req.locale))
  {
    if !HasRequiredFields(req) then Reject(Response(400, Error(MissingFields)))
    else if !TruthyText(env.openRouterApiKey) then Reject(Response(500, Error(MissingApiKey)))
    else
      var locale := NormalizeLocale(req.locale);
      Call(UpstreamRequest(locale, UserPrompt(req, locale)))
  }

  /** The whole handler. A missing field is a 400 whatever the configuration and the
      upstream; a missing key is a 500 whatever the upstream; otherwise the upstream
      result for exactly this prompt is classified. */
  function Post(req: NameRequest, env: Env, parse: string -> Option<Json>, fetch: UpstreamRequest -> Upstream): (r: Response)
    ensures !HasRequiredFields(req) ==> r == Response(400, Error(MissingFields))
    ensures HasRequiredFields(req) && !TruthyText(env.openRouterApiKey) ==> r == Response(500, Error(MissingApiKey))
    ensures HasRequiredFields(req) && TruthyText(env.openRouterApiKey) ==>
      var locale := NormalizeLocale(req.locale);
      r == Respond(GenerationFailed, parse, fetch(UpstreamRequest(locale, UserPrompt(req, locale))))
    ensures r.status == 200 ==> HasRequiredFields(req) && TruthyText(env.openRouterApiKey) && r.body.Payload?
  {
    match Prepare(req, env)
    case Reject(response) => response
    case Call(request) => Respond(GenerationFailed, parse, fetch(request))
  }
}

=== FILE: js_value.dfy ===
/** JavaScript values as the two API routes see them after `JSON.parse`, together with
    the handful of JavaScript semantics the routes rely on: truthiness, optional property
    reads (`v?.key`, `v?.[0]`), `||` on optional strings, `String.prototype.startsWith`,
    `Array.prototype.join` with its single-character `split` inverse, and `String(v)`. */
module JsValue {
  import opened Optional

  /** A value produced by `JSON.parse`. Numbers are modelled as integers. */
  datatype Json =
    | Null
    | Bool(bval: bool)
    | Num(num: int)
    | Str(str: string)
    | Arr(elems: seq<Json>)
    | Obj(props: map<string, Json>)

  /** JavaScript truthiness: `null`, `false`, `0` and `""` are falsy; every array and
      every object, even an empty one, is truthy. */
  predicate TruthyJson(v: Json) {
    match v
    case Null => false
    case Bool(b) => b
    case Num(n) => n != 0
    case Str(s) => s != ""
    case Arr(_) => true
    case Obj(_) => true
  }

  /** Truthiness of a value that may be `undefined` (`None`). */
  predicate Truthy(v: Option<Json>) {
    v.Some? && TruthyJson(v.value)
  }

  /** Truthiness of a `string | undefined`. */
  predicate TruthyText(t: Option<string>) {
    t.Some? && t.value != ""
  }

  /** `v?.[key]` for a property name: only objects have the properties the routes read;
      on anything else, including `null` and `undefined`, the read gives `undefined`. */
  function Field(v: Option<Json>, key: string): (r: Option<Json>)
    ensures r.Some? <==> v.Some? && v.value.Obj? && key in v.value.props
    ensures r.Some? ==> r.value == v.value.props[key]
  {
    match v
    case Some(Obj(props)) => if key in props then Some(props[key]) else None
    case _ => None
  }

  /** `v?.[0]`: the first element of an array, the property named "0" of an object, the
      first character of a string; `undefined` otherwise. */
  function Index0(v: Option<Json>): (r: Option<Json>)
    ensures r.Some? <==> (v.Some? && v.value.Arr? && |v.value.elems| > 0) ||
                         (v.Some? && v.value.Obj? && "0" in v.value.props) ||
                         (v.Some? && v.value.Str? && v.value.str != "")
    ensures v.Some? && v.value.Arr? && |v.value.elems| > 0 ==> r == Some(v.value.elems[0])
    ensures v.Some? && v.value.Obj? && "0" in v.value.props ==> r == Some(v.value.props["0"])
    ensures v.Some? && v.value.Str? && v.value.str != "" ==> r == Some(Str([v.value.str[0]]))
  {
    match v
    case Some(Arr(elems)) => if |elems| > 0 then Some(elems[0]) else None
    case Some(Obj(props)) => if "0" in props then Some(props["0"]) else None
    case Some(Str(s)) => if |s| > 0 then Some(Str([s[0]])) else None
    case _ => None
  }

  /** `a || b` on two `string | undefined` operands: the first operand when it is truthy,
      otherwise the second one, whatever it is. */
  function OrElse(a: Option<string>, b: Option<string>): (r: Option<string>)
    ensures TruthyText(a) ==> r == a
    ensures !TruthyText(a) ==> r == b
    ensures TruthyText(r) <==> TruthyText(a) || TruthyText(b)
  {
    if TruthyText(a) then a else b
  }

  /** `s.startsWith(prefix)`: `s` is `prefix` followed by some rest. */
  predicate StartsWith(s: string, prefix: string): (r: bool)
    ensures r <==> exists rest :: s == prefix + rest
  {
    if |prefix| <= |s| && s[..|prefix|] == prefix then
      assert s == prefix + s[|prefix|..];
      true
    else
      false
  }

  /** A `label: value` text splits back at its first colon when the label has none, so
      equal texts have equal labels and equal values. */
  lemma {:induction false} LabelledTextsAgree(la: string, va: string, lb: string, vb: string)
    requires ':' !in la && ':' !in lb
    ensures la + ": " + va == lb + ": " + vb ==> la == lb && va == vb
  {
    var t := la + ": " + va;
    if t == lb + ": " + vb {
      assert t[|la|] == ':' && t[|lb|] == ':';
      assert la == t[..|la|] == lb;
      assert va == t[|la| + 2..] == vb;
    }
  }

  predicate EndsWith(s: string, suffix: string) {
    |suffix| <= |s| && s[|s| - |suffix|..] == suffix
  }

  /** The summed length of a list of texts. */
  function TotalLength(parts: seq<string>): nat {
    if |parts| == 0 then 0 else |parts[0]| + TotalLength(parts[1..])
  }

  /** `parts.join(sep)`: the parts in order with one separator between neighbours, so
      it opens with the first part, closes with the last, and is as long as the parts
      and the separators together. */
  function Join(parts: seq<string>, sep: string): (r: string)
    ensures |parts| == 0 ==> r == ""
    ensures |parts| > 0 ==> StartsWith(r, parts[0]) && EndsWith(r, parts[|parts| - 1])
    ensures |parts| > 0 ==> |r| == TotalLength(parts) + (|parts| - 1) * |sep|
  {
    if |parts| == 0 then ""
    else if |parts| == 1 then parts[0]
    else parts[0] + sep + Join(parts[1..], sep)
  }

  /** `s.split(sep)` for a one-character separator: the pieces between separators, at
      least one piece (the empty string splits into `[""]`). */
  function Split(s: string, sep: char): (r: seq<string>)
    ensures |r| >= 1
    ensures forall k | 0 <= k < |r| :: sep !in r[k]
  {
    if |s| == 0 then [""]
    else
      var rest := Split(s[1..], sep);
      if s[0] == sep then [""] + rest
      else [[s[0]] + rest[0]] + rest[1..]
  }

  /** Joining two non-empty lists is joining their joins. */
  lemma {:induction false} JoinAppend(a: seq<string>, b: seq<string>, sep: string)
    requires |a| > 0 && |b| > 0
    ensures Join(a + b, sep) == Join(a, sep) + sep + Join(b, sep)
  {
    if |a| == 1 {
      assert (a + b)[0] == a[0] && (a + b)[1..] == b;
    } else {
      assert (a + b)[0] == a[0] && (a + b)[1..] == a[1..] + b;
      JoinAppend(a[1..], b, sep);
    }
  }

  /** When no part is empty, the join is empty exactly when there are no parts. */
  lemma {:induction false} JoinEmptyIff(parts: seq<string>, sep: string)
    requires forall k | 0 <= k < |parts| :: parts[k] != ""
    ensures Join(parts, sep) == "" <==> |parts| == 0
  {
    if |parts| > 1 {
      assert |Join(parts, sep)| >= |parts[0]|;
    }
  }

  /** A piece without the separator splits into itself. */
  lemma {:induction false} SplitWithoutSeparator(s: string, sep: char)
    requires sep !in s
    ensures Split(s, sep) == [s]
  {
    if |s| > 0 {
      assert sep !in s[1..] by {
        forall k | 0 <= k < |s[1..]| ensures s[1..][k] != sep {
          assert s[1..][k] == s[k + 1];
        }
      }
      SplitWithoutSeparator(s[1..], sep);
      assert [s[0]] + s[1..] == s;
    }
  }

  /** Splitting `a + sep + b` with `sep` absent from `a` splits off `a` first. */
  lemma {:induction false} SplitAtFirstSeparator(a: string, b: string, sep: char)
    requires sep !in a
    ensures Split(a + [sep] + b, sep) == [a] + Split(b, sep)
  {
    var s := a + [sep] + b;
    if |a| == 0 {
      assert s[1..] == b;
    } else {
      assert s[1..] == a[1..] + [sep] + b;
      assert sep !in a[1..] by {
        forall k | 0 <= k < |a[1..]| ensures a[1..][k] != sep {
          assert a[1..][k] == a[k + 1];
        }
      }
      SplitAtFirstSeparator(a[1..], b, sep);
      assert [a[0]] + a[1..] == a;
    }
  }

  lemma JoinTwo(a: string, b: string, sep: string)
    ensures Join([a, b], sep) == a + sep + b
  {
    assert [a, b][1..] == [b];
  }

  /** A character in neither the parts nor the separator is not in their join. */
  lemma {:induction false} JoinAvoids(parts: seq<string>, sep: string, c: char)
    requires c !in sep
    requires forall k | 0 <= k < |parts| :: c !in parts[k]
    ensures c !in Join(parts, sep)
  {
    if |parts| > 1 {
      JoinAvoids(parts[1..], sep, c);
    }
  }

  /** `split` undoes `join` when no part contains the separator. */
  lemma {:induction false} SplitJoin(parts: seq<string>, sep: char)
    requires |parts| > 0
    requires forall k | 0 <= k < |parts| :: sep !in parts[k]
    ensures Split(Join(parts, [sep]), sep) == parts
  {
    if |parts| == 1 {
      SplitWithoutSeparator(parts[0], sep);
    } else {
      SplitJoin(parts[1..], sep);
      SplitAtFirstSeparator(parts[0], Join(parts[1..], [sep]), sep);
      assert [parts[0]] + parts[1..] == parts;
    }
  }

  predicate IsDigit(c: char) {
    '0' <= c <= '9'
  }

  function DigitChar(d: nat): (c: char)
    requires d < 10
    ensures IsDigit(c)
  {
    ('0' as int + d) as char
  }

  /** The decimal notation of a natural number, without leading zeros. */
  function Decimal(n: nat): (r: string)
    ensures |r| >= 1
    ensures forall k | 0 <= k < |r| :: IsDigit(r[k])
    ensures r[0] == '0' ==> n == 0
  {
    if n < 10 then [DigitChar(n)]
    else Decimal(n / 10) + [DigitChar(n % 10)]
  }

  /** The number a string of digits denotes. */
  function DigitsValue(s: string): nat
    requires forall k | 0 <= k < |s| :: IsDigit(s[k])
  {
    if |s| == 0 then 0
    else
      assert IsDigit(s[|s| - 1]);
      DigitsValue(s[..|s| - 1]) * 10 + (s[|s| - 1] as int - '0' as int)
  }

  /** Reading the decimal notation back gives the number. */
  lemma {:induction false} DecimalRoundTrip(n: nat)
    ensures DigitsValue(Decimal(n)) == n
  {
    if n >= 10 {
      var s := Decimal(n);
      assert s[..|s| - 1] == Decimal(n / 10);
      DecimalRoundTrip(n / 10);
    }
  }

  /** Below this magnitude JavaScript writes an integer in plain decimal notation. */
  const PlainDecimalBound := 1_000_000_000_000_000_000_000

  /** `String(v)`: the text `new Error(v)` takes as its message, or `None` where the
      conversion throws a `TypeError`. An object converts through its `toString`, which
      an object parsed from JSON inherits unless it has its own property `toString`;
      that property is then no function, the inherited `valueOf` gives back the object
      itself, and no primitive value is found. Array elements are converted one by one,
      `null` elements as the empty string, and joined with commas. */
  function ToJsString(v: Json): (r: Option<string>)
    ensures v.Null? ==> r == Some("null")
    ensures v.Bool? ==> r == Some(if v.bval then "true" else "false")
    ensures v.Num? && 0 <= v.num < PlainDecimalBound ==> r == Some(Decimal(v.num))
    ensures v.Num? && -PlainDecimalBound < v.num < 0 ==> r == Some("-" + Decimal(-v.num))
    ensures v.Str? ==> r == Some(v.str)
    ensures v.Arr? ==> (r.None? <==> ElementStrings(v.elems).None?)
    ensures v.Arr? && r.Some? ==> r.value == Join(ElementStrings(v.elems).value, ",")
    ensures v.Arr? && |v.elems| == 0 ==> r == Some("")
    ensures v.Obj? ==> (r.None? <==> "toString" in v.props)
    ensures v.Obj? && r.Some? ==> r.value == "[object Object]"
    decreases v, 1
  {
    match v
    case Null => Some("null")
    case Bool(b) => Some(if b then "true" else "false")
    case Num(n) => Some(if n < 0 then "-" + Decimal(-n) else Decimal(n))
    case Str(s) => Some(s)
    case Arr(elems) =>
      var texts := ElementStrings(elems);
      if texts.None? then None else Some(Join(texts.value, ","))
    case Obj(props) => if "toString" in props then None else Some("[object Object]")
  }

  /** The texts `join` puts between the commas: `null` as the empty text, every other
      element as its own `String`; `None` when some element's conversion throws. */
  function ElementStrings(elems: seq<Json>): (r: Option<seq<string>>)
    ensures r.None? <==> exists k | 0 <= k < |elems| :: !elems[k].Null? && ToJsString(elems[k]).None?
    ensures r.Some? ==> |r.value| == |elems|
    ensures r.Some? ==> forall k | 0 <= k < |elems| ::
      Some(r.value[k]) == (if elems[k].Null? then Some("") else ToJsString(elems[k]))
    decreases elems, 0
  {
    if |elems| == 0 then Some([])
    else
      var first := if elems[0].Null? then Some("") else ToJsString(elems[0]);
      var rest := ElementStrings(elems[1..]);
      assert forall k | 1 <= k < |elems| :: elems[k] == elems[1..][k - 1];
      if first.None? || rest.None? then None
      else Some([first.value] + rest.value)
  }

  /** An array of texts without commas converts to a text that splits back into them. */
  lemma ArrayOfTextsSplits(elems: seq<Json>)
    requires |elems| > 0
    requires forall k | 0 <= k < |elems| :: elems[k].Str? && ',' !in elems[k].str
    ensures ToJsString(Arr(elems)).Some?
    ensures |Split(ToJsString(Arr(elems)).value, ',')| == |elems|
    ensures forall k | 0 <= k < |elems| :: Split(ToJsString(Arr(elems)).value, ',')[k] == elems[k].str
  {
    var parts := ElementStrings(elems).value;
    assert forall k | 0 <= k < |parts| :: parts[k] == elems[k].str;
    SplitJoin(parts, ',');
  }

  /** An object with its own `toString` property cannot be converted, also as an
      element of an array. */
  lemma OwnToStringThrows(props: map<string, Json>, before: seq<Json>, after: seq<Json>)
    requires "toString" in props
    ensures ToJsString(Obj(props)).None?
    ensures ToJsString(Arr(before + [Obj(props)] + after)).None?
  {
    var elems := before + [Obj(props)] + after;
    assert elems[|before|] == Obj(props);
  }
}

=== FILE: name_generator.dfy ===
/** The client form of components/name-generator.tsx as a state machine: the expectation
    toggle, the submit guard and the request it sends, the transition when the request
    settles, and the reset button. React's state hooks become one immutable `Form`; the
    request to `/api/generate-names` is the `GenerateNames.NameRequest` it carries, and
    how it settles is the input `Reply`. */
module NameGenerator {
  import opened Optional
  import opened JsValue
  import opened Completion
  import GenerateNames

  // ---- toggleExpectation ----

  /** `s.filter((value) => value !== x)`: every occurrence of `x` dropped, the rest kept
      in order. */
  function RemoveAll(s: seq<string>, x: string): (r: seq<string>)
    ensures x !in r
    ensures forall y | y != x :: y in r <==> y in s
    ensures multiset(r) == multiset(s)[x := 0]
    ensures |r| <= |s|
  {
    if |s| == 0 then []
    else
      assert s == [s[0]] + s[1..];
      (if s[0] == x then [] else [s[0]]) + RemoveAll(s[1..], x)
  }

  /** Filtering distributes over concatenation, so the kept elements keep their order. */
  lemma {:induction false} RemoveAllAppend(a: seq<string>, b: seq<string>, x: string)
    ensures RemoveAll(a + b, x) == RemoveAll(a, x) + RemoveAll(b, x)
  {
    if |a| > 0 {
      assert (a + b)[1..] == a[1..] + b;
      RemoveAllAppend(a[1..], b, x);
    } else {
      assert a + b == b;
    }
  }

  /** Filtering out an absent value changes nothing. */
  lemma {:induction false} RemoveAllAbsent(s: seq<string>, x: string)
    requires x !in s
    ensures RemoveAll(s, x) == s
  {
    if |s| > 0 {
      assert x !in s[1..];
      RemoveAllAbsent(s[1..], x);
      assert s == [s[0]] + s[1..];
    }
  }

  /** No value occurs twice. */
  predicate Distinct(s: seq<string>) {
    forall i, j | 0 <= i < j < |s| :: s[i] != s[j]
  }

  /** Filtering a duplicate-free list leaves it duplicate-free. */
  lemma {:induction false} RemoveAllDistinct(s: seq<string>, x: string)
    requires Distinct(s)
    ensures Distinct(RemoveAll(s, x))
  {
    if |s| > 0 {
      var tail := s[1..];
      assert Distinct(tail) by {
        forall i, j | 0 <= i < j < |tail| ensures tail[i] != tail[j] {
          assert tail[i] == s[i + 1] && tail[j] == s[j + 1];
        }
      }
      RemoveAllDistinct(tail, x);
      var rest := RemoveAll(tail, x);
      if s[0] != x {
        assert s[0] !in tail by {
          forall k | 0 <= k < |tail| ensures tail[k] != s[0] {
            assert tail[k] == s[k + 1];
          }
        }
        assert s[0] !in rest;
        var r := [s[0]] + rest;
        forall i, j | 0 <= i < j < |r| ensures r[i] != r[j] {
          if i == 0 {
            assert r[j] == rest[j - 1];
          } else {
            assert r[i] == rest[i - 1] && r[j] == rest[j - 1];
          }
        }
      }
    }
  }

  /** `toggleExpectation`: an item already chosen is removed everywhere; a new one is
      appended at the end. */
  function Toggle(prev: seq<string>, item: string): (r: seq<string>)
    ensures item in r <==> item !in prev
    ensures forall y | y != item :: y in r <==> y in prev
    ensures item !in prev ==> r == prev + [item]
    ensures item in prev ==> r == RemoveAll(prev, item)
    ensures item in prev ==> multiset(r) == multiset(prev)[item := 0]
    ensures item !in prev ==> multiset(r) == multiset(prev) + multiset{item}
  {
    if item in prev then RemoveAll(prev, item) else prev + [item]
  }

  /** Toggling never introduces a duplicate. */
  lemma ToggleKeepsDistinct(prev: seq<string>, item: string)
    requires Distinct(prev)
    ensures Distinct(Toggle(prev, item))
  {
    if item in prev {
      RemoveAllDistinct(prev, item);
    } else {
      var r := prev + [item];
      forall i, j | 0 <= i < j < |r| ensures r[i] != r[j] {
        if j == |prev| {
          assert r[i] == prev[i];
        } else {
          assert r[i] == prev[i] && r[j] == prev[j];
        }
      }
    }
  }

  /** Toggling a new item on and off again restores the list. */
  lemma ToggleTwiceRestores(prev: seq<string>, item: string)
    requires item !in prev
    ensures Toggle(Toggle(prev, item), item) == prev
  {
    RemoveAllAppend(prev, [item], item);
    RemoveAllAbsent(prev, item);
  }

  /** Toggling a chosen item off and on again moves it, once, to the end. */
  lemma ToggleTwiceMovesToEnd(prev: seq<string>, item: string)
    requires item in prev
    ensures Toggle(Toggle(prev, item), item) == RemoveAll(prev, item) + [item]
  {
  }

  // ---- the form state ----

  datatype Gender = Male | Female {
    function Value(): string {
      match this
      case Male => "male"
      case Female => "female"
    }
  }

  datatype LengthPreference = Single | Double {
    function Value(): string {
      match this
      case Single => "single"
      case Double => "double"
    }
  }

  /** The form's error line: the localised required-surname text, or a message. */
  datatype FormError = RequiredSurname | Message(text: string)

  /** The component's state. `suggestions` and `analysis` hold whatever the route
      answered; they start as `[]` and `null`. */
  datatype Form = Form(
    surname: string,
    gender: Gender,
    birthDateTime: string,
    expectations: seq<string>,
    avoidChars: string,
    lengthPreference: LengthPreference,
    suggestions: Json,
    analysis: Json,
    error: Option<FormError>,
    isLoading: bool)

  /** The initial values of the state hooks. */
  const Initial := Form("", Male, "", [], "", Double, Arr([]), Null, None, false)

  /** The fields the user fills in are the same in both states. */
  predicate SameInputs(a: Form, b: Form) {
    && a.surname == b.surname && a.gender == b.gender && a.birthDateTime == b.birthDateTime
    && a.expectations == b.expectations && a.avoidChars == b.avoidChars
    && a.lengthPreference == b.lengthPreference
  }

  /** `toggleExpectation`: the item's membership flips as `Toggle` describes, and
      nothing else in the form changes. */
  function ToggleExpectation(f: Form, item: string): (r: Form)
    ensures SameInputs(r, f.(expectations := r.expectations))
    ensures r.expectations == Toggle(f.expectations, item)
    ensures item in r.expectations <==> item !in f.expectations
    ensures r.suggestions == f.suggestions && r.analysis == f.analysis && r.error == f.error
    ensures r.isLoading == f.isLoading
  {
    f.(expectations := Toggle(f.expectations, item))
  }

  // ---- handleSubmit ----

  /** The characters `String.prototype.trim` removes: white space and line terminators. */
  predicate JsWhitespace(c: char) {
    || c == '\t' || c == '\n' || c == '\U{B}' || c == '\U{C}' || c == '\r' || c == ' '
    || c == '\U{A0}' || c == '\U{1680}' || ('\U{2000}' <= c <= '\U{200A}')
    || c == '\U{2028}' || c == '\U{2029}' || c == '\U{202F}' || c == '\U{205F}'
    || c == '\U{3000}' || c == '\U{FEFF}'
  }

  predicate Blank(s: string) {
    forall k | 0 <= k < |s| :: JsWhitespace(s[k])
  }

  /** Leading white space removed: a suffix of `s` whose dropped prefix is white space. */
  function TrimStart(s: string): (r: string)
    ensures |r| <= |s| && r == s[|s| - |r|..]
    ensures forall k | 0 <= k < |s| - |r| :: JsWhitespace(s[k])
    ensures r != "" ==> !JsWhitespace(r[0])
  {
    if |s| == 0 then s
    else if JsWhitespace(s[0]) then
      var r := TrimStart(s[1..]);
      assert s[1..][|s[1..]| - |r|..] == s[|s| - |r|..];
      assert forall k | 1 <= k < |s| - |r| :: s[k] == s[1..][k - 1];
      r
    else s
  }

  /** Trailing white space removed: a prefix of `s` whose dropped suffix is white space. */
  function TrimEnd(s: string): (r: string)
    ensures |r| <= |s| && r == s[..|r|]
    ensures forall k | |r| <= k < |s| :: JsWhitespace(s[k])
    ensures r != "" ==> !JsWhitespace(r[|r| - 1])
  {
    if |s| == 0 then s
    else if JsWhitespace(s[|s| - 1]) then
      var r := TrimEnd(s[..|s| - 1]);
      assert forall k | |r| <= k < |s| - 1 :: s[k] == s[..|s| - 1][k];
      r
    else s
  }

  /** `s.trim()`: empty exactly when `s` is all white space; otherwise it starts and ends
      with a character that is not. */
  function Trim(s: string): (r: string)
    ensures r == "" <==> Blank(s)
    ensures r != "" ==> !JsWhitespace(r[0]) && !JsWhitespace(r[|r| - 1])
  {
    var t := TrimStart(s);
    var r := TrimEnd(t);
    assert t != "" ==> t[0] == s[|s| - |t|];
    r
  }

  /** `value || undefined`: an empty text is left out of the request body. */
  function Omitted(value: string): (r: Option<string>)
    ensures r.None? <==> value == ""
    ensures r.Some? ==> r.value == value
  {
    if value == "" then None else Some(value)
  }

  /** The `locale` the page posts, which the route reads back as the same locale. */
  function LocaleCode(locale: Locale): (r: string)
    ensures Completion.NormalizeLocale(Some(r)) == locale
  {
    match locale
    case Zh => "zh"
    case En => "en"
  }

  /** The body `handleSubmit` posts: every value as the form holds it, except that an
      empty birth time or avoid text is left out of the JSON, and the page's locale. */
  function RequestOf(f: Form, locale: Locale): (r: GenerateNames.NameRequest)
    ensures r.surname == Some(f.surname) && r.gender == Some(f.gender.Value())
    ensures r.expectations == Some(f.expectations)
    ensures r.nameLengthPreference == Some(f.lengthPreference.Value())
    ensures r.birthDateTime.Some? <==> f.birthDateTime != ""
    ensures r.birthDateTime.Some? ==> r.birthDateTime.value == f.birthDateTime
    ensures r.avoidChars.Some? <==> f.avoidChars != ""
    ensures r.avoidChars.Some? ==> r.avoidChars.value == f.avoidChars
    ensures Completion.NormalizeLocale(r.locale) == locale
  {
    GenerateNames.NameRequest(
      Some(f.surname), Some(f.gender.Value()), Omitted(f.birthDateTime), Some(f.expectations),
      Omitted(f.avoidChars), Some(f.lengthPreference.Value()), Some(LocaleCode(locale)))
  }

  /** What submitting does before the request settles. */
  datatype Submission = Rejected(form: Form) | Requesting(form: Form, request: GenerateNames.NameRequest)

  /** `handleSubmit`: a blank surname only sets the required-surname error; otherwise the
      form enters loading with the error and the previous results cleared, and the form's
      values are posted. */
  function Submit(f: Form, locale: Locale): (r: Submission)
    ensures r.Rejected? <==> Blank(f.surname)
    ensures r.Rejected? ==> r.form == f.(error := Some(RequiredSurname))
    ensures r.Requesting? ==> SameInputs(r.form, f) && r.form.isLoading
    ensures r.Requesting? ==> r.form.error.None? && r.form.suggestions == Arr([]) && r.form.analysis == Null
    ensures r.Requesting? ==> r.request == RequestOf(f, locale)
  {
    if Trim(f.surname) == "" then Rejected(f.(error := Some(RequiredSurname)))
    else Requesting(f.(isLoading := true, error := None, suggestions := Arr([]), analysis := Null),
                    RequestOf(f, locale))
  }

  /** A request the form sends always passes the route's validation, and the route reads
      back the form's locale. */
  lemma SubmittedRequestIsValid(f: Form, locale: Locale)
    requires !Blank(f.surname)
    ensures Submit(f, locale).Requesting?
    ensures GenerateNames.HasRequiredFields(Submit(f, locale).request)
    ensures NormalizeLocale(Submit(f, locale).request.locale) == locale
  {
  }

  /** The prompt the route builds for a submitted form has a birth line exactly when the
      birth field is filled in, an avoided-characters line exactly when that field is,
      an expectations line exactly when one is chosen, and always a length line. */
  lemma SubmittedPromptFollowsForm(f: Form, locale: Locale)
    requires !Blank(f.surname)
    ensures var lines := GenerateNames.PromptLines(RequestOf(f, locale), locale);
      var hs := GenerateNames.Headings(lines);
      && (GenerateNames.Birth in hs <==> f.birthDateTime != "")
      && (GenerateNames.Avoid in hs <==> f.avoidChars != "")
      && (GenerateNames.Expectations in hs <==> |f.expectations| > 0)
      && GenerateNames.Length in hs
  {
  }

  // ---- the request settles ----

  /** How the request settled: `fetch` or `response.json()` threw an error with this
      message, or the response arrived with its `ok` flag and parsed body. */
  datatype Reply = Failed(message: string) | Answered(ok: bool, data: Json)

  const GenericFailure := "生成失败，请稍后再试"

  /** The message of the `TypeError` that `String(v)` throws for a value with no
      primitive form, as the V8 engine words it. */
  const ConversionFailure := "Cannot convert object to primitive value"

  /** The message the `catch` shows for a non-ok reply: `new Error(data?.error ||
      "生成失败，请稍后再试")` gives the error's `String`, and when that conversion throws,
      the `TypeError` is what is caught. */
  function ErrorMessage(data: Json): (r: string)
    ensures !Truthy(Field(Some(data), "error")) ==> r == GenericFailure
    ensures (data.Obj? && "error" in data.props && data.props["error"].Str? &&
             data.props["error"].str != "") ==> r == data.props["error"].str
    ensures Truthy(Field(Some(data), "error")) && ToJsString(data.props["error"]).Some? ==>
      r == ToJsString(data.props["error"]).value
    ensures Truthy(Field(Some(data), "error")) && ToJsString(data.props["error"]).None? ==>
      r == ConversionFailure
    ensures (data.Obj? && "error" in data.props && data.props["error"].Obj?) ==>
      r == (if "toString" in data.props["error"].props then ConversionFailure else "[object Object]")
  {
    var e := Field(Some(data), "error");
    if Truthy(e) then ToJsString(e.value).GetOr(ConversionFailure) else GenericFailure
  }

  /** `v || fallback` on a property that may be `undefined`. */
  function OrJson(v: Option<Json>, fallback: Json): (r: Json)
    ensures Truthy(v) ==> r == v.value
    ensures !Truthy(v) ==> r == fallback
  {
    if Truthy(v) then v.value else fallback
  }

  /** The `try`/`catch`/`finally` after the request: an error ends in its message, a
      success stores the suggestions (else `[]`) and the analysis (else `null`), and
      loading always ends. The fields the user fills in are never touched. */
  function Complete(f: Form, reply: Reply): (r: Form)
    ensures !r.isLoading
    ensures SameInputs(r, f)
    ensures reply.Failed? ==> r == f.(error := Some(Message(reply.message)), isLoading := false)
    ensures reply.Answered? && !reply.ok ==>
      r == f.(error := Some(Message(ErrorMessage(reply.data))), isLoading := false)
    ensures reply.Answered? && reply.ok ==> r.error == f.error
    ensures reply.Answered? && reply.ok ==> TruthyJson(r.suggestions) || r.suggestions == Arr([])
    ensures reply.Answered? && reply.ok && Truthy(Field(Some(reply.data), "suggestions")) ==>
      r.suggestions == reply.data.props["suggestions"]
    ensures reply.Answered? && reply.ok && !Truthy(Field(Some(reply.data), "suggestions")) ==>
      r.suggestions == Arr([])
    ensures reply.Answered? && reply.ok && Truthy(Field(Some(reply.data), "analysis")) ==>
      r.analysis == reply.data.props["analysis"]
    ensures reply.Answered? && reply.ok && !Truthy(Field(Some(reply.data), "analysis")) ==>
      r.analysis == Null
  {
    match reply
    case Failed(message) => f.(error := Some(Message(message)), isLoading := false)
    case Answered(ok, data) =>
      if !ok then f.(error := Some(Message(ErrorMessage(data))), isLoading := false)
      else f.(suggestions := OrJson(Field(Some(data), "suggestions"), Arr([])),
              analysis := OrJson(Field(Some(data), "analysis"), Null),
              isLoading := false)
  }

  /** A whole submission: a rejected one never loads; an accepted one ends not loading,
      with no error when the route answered ok and an error otherwise. */
  lemma SubmitThenComplete(f: Form, locale: Locale, reply: Reply)
    requires !Blank(f.surname)
    ensures var done := Complete(Submit(f, locale).form, reply);
      && !done.isLoading && SameInputs(done, f)
      && (done.error.None? <==> reply.Answered? && reply.ok)
  {
  }

  /** A rejected submission keeps the earlier results on screen. */
  lemma RejectedKeepsResults(f: Form, locale: Locale)
    requires Blank(f.surname)
    ensures Submit(f, locale).form.suggestions == f.suggestions
    ensures Submit(f, locale).form.analysis == f.analysis
    ensures Submit(f, locale).form.isLoading == f.isLoading
  {
  }

  // ---- the reset button ----

  /** The reset button: every field back to its initial value, except that a request
      in flight keeps loading. */
  function Reset(f: Form): (r: Form)
    ensures SameInputs(r, Initial)
    ensures r.surname == "" && r.gender == Male && r.lengthPreference == Double
    ensures r.suggestions == Arr([]) && r.analysis == Null && r.error.None?
    ensures r.isLoading == f.isLoading
  {
    Form("", Male, "", [], "", Double, Arr([]), Null, None, f.isLoading)
  }

  /** Resetting twice is resetting once; resetting the initial form changes nothing. */
  lemma ResetIdempotent(f: Form)
    ensures Reset(Reset(f)) == Reset(f)
    ensures Reset(Initial) == Initial
  {
  }

  /** Submitting right after a reset is rejected for the missing surname. */
  lemma SubmitAfterResetIsRejected(f: Form, locale: Locale)
    ensures Submit(Reset(f), locale).Rejected?
    ensures Submit(Reset(f), locale).form.error == Some(RequiredSurname)
  {
  }
}

=== FILE: optional.dfy ===
/** The optional-value datatype used throughout: `None` stands for JavaScript's
    `undefined` / a missing header or query parameter, `Some(v)` for a present value. */
module Optional {

  datatype Option<+T> = None | Some(value: T) {

    /** The wrapped value, or `default` when there is none (JavaScript's `x ?? default`
        when only `undefined` counts as missing). */
    function GetOr(default: T): T {
      match this
      case Some(v) => v
      case None => default
    }
  }
}

=== FILE: response_decoder.dfy ===
/** The tolerant decoder of a chat-completion response, as the name-generation route
    (app/api/generate-names/route.ts) writes it: `tryExtract`, the recursive walk that
    flattens an arbitrarily nested message into text; `extractContent`, the chain of
    places it looks in; and `extractJson`, the parse with a brace-span fallback.
    `JSON.parse` itself is a parameter `parse`, a partial function given as a total one
    that answers `None` where the real one throws. */
module ResponseDecoder {
  import opened Optional
  import opened JsValue

  /** `tryExtract` on a value that is present. The result is `None` for `undefined`. */
  function Extract(v: Json): (r: Option<string>)
    ensures !TruthyJson(v) ==> r == None
    ensures v.Str? && v.str != "" ==> r == Some(v.str)
    ensures v.Bool? || v.Num? ==> r == None
    ensures v.Arr? ==> r.Some? && (r.value == "" <==> Parts(v.elems) == [])
    ensures v.Obj? && "text" in v.props && v.props["text"].Str? ==> r == Some(v.props["text"].str)
    ensures (v.Obj? && !("text" in v.props && v.props["text"].Str?) && "content" in v.props &&
             v.props["content"].Str?) ==> r == Some(v.props["content"].str)
    ensures v.Obj? ==>
      (r.Some? <==> ("text" in v.props && v.props["text"].Str?) ||
                    ("content" in v.props && (v.props["content"].Arr? || v.props["content"].Str?)))
  {
    if !TruthyJson(v) then None
    else match v
      case Str(s) => Some(s)
      case Arr(elems) => Some(JoinLines(Parts(elems)))
      case Obj(props) =>
        if "text" in props && props["text"].Str? then Some(props["text"].str)
        else if "content" in props && props["content"].Arr? then Some(JoinLines(Parts(props["content"].elems)))
        else if "content" in props && props["content"].Str? then Some(props["content"].str)
        else None
      case _ => None
  }

  /** `parts.map(tryExtract).filter(Boolean)`: the non-empty texts of the parts, in order. */
  function Parts(elems: seq<Json>): (r: seq<string>)
    ensures |r| <= |elems|
    ensures forall k | 0 <= k < |r| :: r[k] != ""
  {
    if |elems| == 0 then []
    else
      var first := Extract(elems[0]);
      (if TruthyText(first) then [first.value] else []) + Parts(elems[1..])
  }

  /** `.join("\n")`, with the fact that a join of non-empty lines is empty only when
      there are no lines. */
  function JoinLines(lines: seq<string>): (r: string)
    requires forall k | 0 <= k < |lines| :: lines[k] != ""
    ensures r == Join(lines, "\n")
    ensures r == "" <==> |lines| == 0
  {
    JoinEmptyIff(lines, "\n");
    Join(lines, "\n")
  }

  /** `tryExtract` on a value that may be `undefined`, which gives nothing. */
  function TryExtract(v: Option<Json>): (r: Option<string>)
    ensures v.None? ==> r == None
    ensures v.Some? ==> r == Extract(v.value)
    ensures TruthyText(r) ==> Truthy(v)
  {
    match v
    case None => None
    case Some(j) => Extract(j)
  }

  /** The five places `extractContent` looks in, in the order it tries them: the message,
      its `content`, its element `[0]`, its `message`, its `delta`. */
  function Attempts(message: Option<Json>): (r: seq<Option<string>>)
    ensures |r| == 5
  {
    [ TryExtract(message),
      TryExtract(Field(message, "content")),
      TryExtract(Index0(message)),
      TryExtract(Field(message, "message")),
      TryExtract(Field(message, "delta")) ]
  }

  /** `extractContent`: nothing for a falsy message; otherwise the first truthy attempt,
      and when no attempt is truthy the (falsy) value of the last one. */
  function ExtractContent(message: Option<Json>): (r: Option<string>)
    ensures !Truthy(message) ==> r == None
    ensures Truthy(message) ==>
      (TruthyText(r) <==> exists i | 0 <= i < 5 :: TruthyText(Attempts(message)[i]))
    ensures TruthyText(r) ==>
      exists i | 0 <= i < 5 :: r == Attempts(message)[i] &&
        forall j | 0 <= j < i :: !TruthyText(Attempts(message)[j])
    ensures Truthy(message) && !TruthyText(r) ==> r == Attempts(message)[4]
  {
    if !Truthy(message) then None
    else
      var a := Attempts(message);
      OrElse(a[0], OrElse(a[1], OrElse(a[2], OrElse(a[3], a[4]))))
  }

  /** `typeof message?.reasoning === "string" ? message.reasoning : undefined`. */
  function Reasoning(message: Option<Json>): (r: Option<string>)
    ensures r.Some? <==> Field(message, "reasoning").Some? && Field(message, "reasoning").value.Str?
    ensures r.Some? ==> Field(message, "reasoning") == Some(Str(r.value))
  {
    match Field(message, "reasoning")
    case Some(Str(s)) => Some(s)
    case _ => None
  }

  /** The content both routes decode: `extractContent(message) || reasoning`. */
  function Content(message: Option<Json>): (r: Option<string>)
    ensures TruthyText(ExtractContent(message)) ==> r == ExtractContent(message)
    ensures !TruthyText(ExtractContent(message)) ==> r == Reasoning(message)
    ensures TruthyText(r) <==> TruthyText(ExtractContent(message)) || TruthyText(Reasoning(message))
  {
    OrElse(ExtractContent(message), Reasoning(message))
  }

  /** `s.indexOf(c)`. */
  function FirstIndex(s: string, c: char): (r: Option<nat>)
    ensures r.Some? ==> r.value < |s| && s[r.value] == c
    ensures r.Some? ==> forall k | 0 <= k < r.value :: s[k] != c
    ensures r.None? ==> forall k | 0 <= k < |s| :: s[k] != c
  {
    if |s| == 0 then None
    else if s[0] == c then Some(0)
    else match FirstIndex(s[1..], c)
      case None => None
      case Some(i) => Some(i + 1)
  }

  /** `s.lastIndexOf(c)`. */
  function LastIndex(s: string, c: char): (r: Option<nat>)
    ensures r.Some? ==> r.value < |s| && s[r.value] == c
    ensures r.Some? ==> forall k | r.value < k < |s| :: s[k] != c
    ensures r.None? ==> forall k | 0 <= k < |s| :: s[k] != c
  {
    if |s| == 0 then None
    else if s[|s| - 1] == c then Some(|s| - 1)
    else LastIndex(s[..|s| - 1], c)
  }

  /** `s[i..j]` is a match of the regular expression `/\{[\s\S]*\}/`: it opens with `{`
      and closes with a later `}`. */
  ghost predicate IsBraceSpan(s: string, i: int, j: int) {
    0 <= i < j < |s| && s[i] == '{' && s[j] == '}'
  }

  /** `s.match(/\{[\s\S]*\}/)?.[0]`: the leftmost match, made as long as possible, which
      is the text from the first `{` to the last `}` when a `}` follows that `{`. */
  function BraceMatch(s: string): (r: Option<string>)
    ensures r.None? <==> forall i, j :: !IsBraceSpan(s, i, j)
    ensures r.Some? ==>
      exists i, j :: IsBraceSpan(s, i, j) && r.value == s[i..j + 1] &&
        (forall i', j' :: IsBraceSpan(s, i', j') ==> i <= i' && j' <= j)
  {
    match FirstIndex(s, '{')
    case None => None
    case Some(i) =>
      match LastIndex(s, '}')
      case None => None
      case Some(j) =>
        if i < j then
          assert IsBraceSpan(s, i, j);
          Some(s[i..j + 1])
        else
          None
  }

  /** `extractJson`: the direct parse when the whole text parses; otherwise the parse of
      the brace span; `null` when there is no span or it does not parse. Never throws. */
  function ExtractJson(parse: string -> Option<Json>, content: string): (r: Json)
    ensures parse(content).Some? ==> r == parse(content).value
    ensures parse(content).None? && BraceMatch(content).None? ==> r == Null
    ensures parse(content).None? && BraceMatch(content).Some? ==>
      r == parse(BraceMatch(content).value).GetOr(Null)
  {
    match parse(content)
    case Some(v) => v
    case None =>
      match BraceMatch(content)
      case Some(span) => parse(span).GetOr(Null)
      case None => Null
  }

  /** Text that contains no `{` at all and does not parse as a whole yields `null`. */
  lemma NoBraceNoPayload(parse: string -> Option<Json>, content: string)
    requires parse(content).None?
    requires '{' !in content
    ensures ExtractJson(parse, content) == Null
  {
    forall i, j ensures !IsBraceSpan(content, i, j) {
      if 0 <= i < |content| {
        assert content[i] in content;
      }
    }
  }

  /** Commentary before and after an object is cut away: when the text before the
      object has no `{` and the text after it has no `}`, the fallback parses exactly the
      object. */
  lemma CommentaryAroundObject(parse: string -> Option<Json>, before: string, obj: string, after: string)
    requires '{' !in before && '}' !in after
    requires |obj| >= 2 && obj[0] == '{' && obj[|obj| - 1] == '}'
    requires parse(before + obj + after).None?
    ensures ExtractJson(parse, before + obj + after) == parse(obj).GetOr(Null)
  {
    BraceMatchAroundObject(before, obj, after);
  }

  /** The brace span of text around an object is that object. */
  lemma BraceMatchAroundObject(before: string, obj: string, after: string)
    requires '{' !in before && '}' !in after
    requires |obj| >= 2 && obj[0] == '{' && obj[|obj| - 1] == '}'
    ensures BraceMatch(before + obj + after) == Some(obj)
  {
    var s := before + obj + after;
    var lo, hi := |before|, |before| + |obj| - 1;
    assert s[lo] == '{' && s[hi] == '}';
    assert s[lo..hi + 1] == obj;
  }

  /** Joining the parts of two arrays: `Extract(Arr(a + b))` is the text of `a`, then a
      newline, then the text of `b`, where an array with no text contributes nothing. */
  lemma {:induction false} ArrayConcat(a: seq<Json>, b: seq<Json>)
    ensures var ta, tb := Extract(Arr(a)).value, Extract(Arr(b)).value;
      Extract(Arr(a + b)) == Some(if ta == "" then tb else if tb == "" then ta else ta + "\n" + tb)
  {
    PartsAppend(a, b);
    var pa, pb := Parts(a), Parts(b);
    if pa != [] && pb != [] {
      JoinAppend(pa, pb, "\n");
    } else if pa == [] {
      assert pa + pb == pb;
    } else {
      assert pa + pb == pa;
    }
  }

  /** `map(tryExtract).filter(Boolean)` distributes over concatenation, so the parts of
      an array keep their original order. */
  lemma {:induction false} PartsAppend(a: seq<Json>, b: seq<Json>)
    ensures Parts(a + b) == Parts(a) + Parts(b)
  {
    if |a| == 0 {
      assert a + b == b;
    } else {
      assert (a + b)[0] == a[0];
      assert (a + b)[1..] == a[1..] + b;
      PartsAppend(a[1..], b);
    }
  }

  /** The non-empty strings of a list, in order: `filter(Boolean)` on texts. */
  function NonEmpty(strs: seq<string>): (r: seq<string>)
    ensures forall k | 0 <= k < |r| :: r[k] != ""
    ensures forall k | 0 <= k < |r| :: r[k] in strs
    ensures forall k | 0 <= k < |strs| && strs[k] != "" :: strs[k] in r
    ensures multiset(r) == multiset(strs)["" := 0]
  {
    if |strs| == 0 then []
    else
      assert strs == [strs[0]] + strs[1..];
      (if strs[0] != "" then [strs[0]] else []) + NonEmpty(strs[1..])
  }

  /** Filtering distributes over concatenation, so the kept strings stay in order. */
  lemma {:induction false} NonEmptyAppend(a: seq<string>, b: seq<string>)
    ensures NonEmpty(a + b) == NonEmpty(a) + NonEmpty(b)
  {
    if |a| == 0 {
      assert a + b == b;
    } else {
      assert (a + b)[0] == a[0];
      assert (a + b)[1..] == a[1..] + b;
      NonEmptyAppend(a[1..], b);
    }
  }

  /** `parts.map(tryExtract)` with `undefined` written as the empty text, which
      `filter(Boolean)` drops just the same. */
  function ExtractedTexts(elems: seq<Json>): (r: seq<string>)
    ensures |r| == |elems|
    ensures forall k | 0 <= k < |elems| :: r[k] == Extract(elems[k]).GetOr("")
  {
    seq(|elems|, k requires 0 <= k < |elems| => Extract(elems[k]).GetOr(""))
  }

  /** The parts of an array are the non-empty texts its elements extract to, in order
      and with their multiplicities. */
  lemma {:induction false} PartsFilterExtracted(elems: seq<Json>)
    ensures Parts(elems) == NonEmpty(ExtractedTexts(elems))
  {
    if |elems| > 0 {
      var texts := ExtractedTexts(elems);
      assert texts[1..] == ExtractedTexts(elems[1..]);
      PartsFilterExtracted(elems[1..]);
    }
  }

  /** A text block `{ text }` with a non-empty text reads as that text. */
  lemma TextBlock(t: string)
    requires t != ""
    ensures Extract(Obj(map["text" := Str(t)])) == Some(t)
  {
    assert "text" in map["text" := Str(t)];
  }

  /** Two elements with non-empty texts are two parts, in their order. */
  lemma {:induction false} TwoParts(x: Json, y: Json)
    requires TruthyText(Extract(x)) && TruthyText(Extract(y))
    ensures Parts([x, y]) == [Extract(x).value, Extract(y).value]
  {
    assert [x, y][1..] == [y];
    assert [y][1..] == [];
  }

  /** A list of text blocks, as providers send multi-part content, reads as the blocks
      joined line by line: `{ content: [{ text: "a" }, { text: "b" }] }` reads as
      `"a\nb"`. */
  lemma TextBlocksJoinByLine(a: string, b: string)
    requires a != "" && b != ""
    ensures Extract(Obj(map["content" := Arr([Obj(map["text" := Str(a)]), Obj(map["text" := Str(b)])])]))
      == Some(a + "\n" + b)
  {
    var x, y := Obj(map["text" := Str(a)]), Obj(map["text" := Str(b)]);
    assert Extract(Arr([x, y])) == Some(a + "\n" + b) by {
      TextBlock(a);
      TextBlock(b);
      TwoParts(x, y);
      JoinTwo(a, b, "\n");
    }
    var props := map["content" := Arr([x, y])];
    assert "text" !in props;
    ContentArrayActsAsArray(props);
  }

  /** The JSON array holding the given strings. */
  function StringArray(strs: seq<string>): (r: Json)
    ensures r.Arr? && |r.elems| == |strs|
    ensures forall k | 0 <= k < |strs| :: r.elems[k] == Str(strs[k])
  {
    Arr(seq(|strs|, k requires 0 <= k < |strs| => Str(strs[k])))
  }

  /** An array of strings extracts to the newline join of its non-empty strings. */
  lemma {:induction false} StringArrayJoinsNonEmpty(strs: seq<string>)
    ensures Extract(StringArray(strs)) == Some(Join(NonEmpty(strs), "\n"))
  {
    StringArrayParts(strs);
  }

  lemma {:induction false} StringArrayParts(strs: seq<string>)
    ensures Parts(StringArray(strs).elems) == NonEmpty(strs)
  {
    var elems := StringArray(strs).elems;
    if |strs| > 0 {
      assert elems[1..] == StringArray(strs[1..]).elems;
      StringArrayParts(strs[1..]);
    }
  }

  /** An object whose `content` is an array (and whose `text` is not a string) extracts
      to exactly what the bare array extracts to. */
  lemma ContentArrayActsAsArray(props: map<string, Json>)
    requires !("text" in props && props["text"].Str?)
    requires "content" in props && props["content"].Arr?
    ensures Extract(Obj(props)) == Extract(props["content"])
  {
  }

  /** The line structure survives: when no extracted part contains a newline, splitting
      the text of a non-empty array at newlines gives back its parts. */
  lemma PartsRecoverable(elems: seq<Json>)
    requires Parts(elems) != []
    requires forall k | 0 <= k < |Parts(elems)| :: '\n' !in Parts(elems)[k]
    ensures Split(Extract(Arr(elems)).value, '\n') == Parts(elems)
  {
    SplitJoin(Parts(elems), '\n');
  }

  /** The `reasoning` field is a last resort: it is consulted only when every attempt of
      `extractContent` came out falsy. */
  lemma ReasoningIsLastResort(message: Option<Json>)
    ensures (Truthy(message) && exists i | 0 <= i < 5 :: TruthyText(Attempts(message)[i])) ==>
      Content(message) == ExtractContent(message)
    ensures (!Truthy(message) || forall i | 0 <= i < 5 :: !TruthyText(Attempts(message)[i])) ==>
      Content(message) == Reasoning(message)
  {
  }
}
